=== FILE: README.md ===
# robotheus collection core, in Dafny

robotheus is a Prometheus exporter. It periodically asks AI providers for
usage records and cost records. Usage records carry token and request counts
per model, project and API-key identifier. Cost records carry US-dollar
amounts per project. The exporter turns these into monotonically increasing
counters.

This project models the core of robotheus as pure functions:

- the deduplication keys and the two stores that remember them
  (`DeduplicationStore`, which the collector uses, and `RecordTracker`, which
  adds age-based eviction);
- the metrics sink, with three counter families per registered provider;
- one provider step of the collector: usage first, then cost, in two
  separate failure domains;
- the run loop, which advances the collection window by one interval per
  cycle;
- the listen-address parser of the entry point.

Module layout, following the source files:

| file | module | source |
|---|---|---|
| `results.dfy` | `Results` | `Option` and `Result` |
| `text.dfy` | `Text` | Python's `str(int)`, `int(str)`, `split` |
| `keys.dfy` | `Keys` | the f-string keys of `dedup.py` and `record_tracker.py` |
| `records.dfy` | `Records` | `models.py` |
| `dedup.dfy` | `Dedup` | `dedup.py` |
| `record_tracker.dfy` | `Tracker` | `record_tracker.py` |
| `metrics.dfy` | `Metrics` | `metrics.py` |
| `collector.dfy` | `Collector` | `collector.py` |
| `listen_address.dfy` | `ListenAddress` | `_parse_listen_address` in `__main__.py` |

Modelling decisions:

- **Record field names.** `models.py` declares `time_frame_start`,
  `time_frame_end` and `api_key_id`. `collector.py` and `metrics.py` read
  `bucket_start`, `bucket_end` and `api_key`. The model has one record type
  with the `models.py` fields and reads them wherever the source reads the
  `bucket_*`/`api_key` names: `bucket_start` maps to `timeFrameStart`,
  `bucket_end` to `timeFrameEnd`, and `api_key` to `apiKeyId`.
- **Records.** `UsageRecord` and `CostRecord` are Dafny datatypes: immutable
  values with field-wise equality, as the frozen dataclasses are. The usage
  record holds an API-key identifier, never the secret. No member assumes
  that a window starts before it ends, or that counts and amounts are
  non-negative, because nothing checks this when a record is built.
- **Providers and the clock.** A provider is reduced to what its two
  fetches returned, either a sequence of records or a raised error
  (`Fetch`, a `Result` whose error is `Raised`). `time.time()` becomes the `now` of each cycle and the `t0` of
  `Start`.
- **Errors.** Exceptions become values. The sink's `KeyError` for an
  unregistered provider is `Err(UnknownProvider)`. A `ValueError` of the
  address parser is `Err(NoColon)` or `Err(BadPort)`. Logging becomes
  `UsageFailed` and `CostFailed` events in a step's trace.
- **Integers.** Arithmetic on Python integers is unbounded, and so is arithmetic
  on Dafny's `int`. The conversions between integers and decimal text are not:
  see the `int()` line under "Left out". `float` amounts are `real`.
- **Negative increments.** Prometheus counters refuse a negative increment.
  The model's counters accept one and go down; see the lines under "Left out"
  that start with `Metrics.UpdateUsage` and `Metrics.UpdateCost`.
- **What the collector does not do.** Cost records are neither deduplicated
  nor filtered for completeness, so a cost window returned in two cycles is
  counted twice (`Collector.CollectTwiceCountsCostTwice`). The collector uses
  `DeduplicationStore`, never `RecordTracker`, and it never evicts. It keeps
  no error counters and no last-success timestamps: a failure is only logged.
  `record_tracker.py` defines no `cost_delta`, although
  tests/test_record_tracker.py:78-130 call one; the model has none either.
- **Key uniqueness.** The keys identify their window only while no field
  contains `|`. `Keys.PipeInFieldCollides` exhibits two different windows
  with the same key. The injectivity and disjointness lemmas carry the
  pipe-free precondition. Windows that differ in the start alone, or in the
  provider alone, get different keys whatever their fields hold
  (`Keys.StartDecidesKey`, `Keys.ProviderDecidesKey`).

## Model

| member | source | states |
|---|---|---|
| Text.IntToString | src/robotheus/record_tracker.py:33 | `str(n)` inside a key is non-empty and all digits, except for a leading `-`, which appears exactly when `n` is negative |
| Text.ParseInt | src/robotheus/__main__.py:22-25 | Python's `int()` on text: text that is empty or only ASCII whitespace (space, `\t` to `\r`) is refused, and a negative value needs a leading `-` after the whitespace |
| Text.ParseIntToString | src/robotheus/__main__.py:22-25 | `int()` reads back every integer `str()` renders, so every rendered port parses to itself |
| Text.ParseIntAcceptsOnlyNumerals | src/robotheus/__main__.py:25 | text that `int()` accepts holds only digits, ASCII whitespace (space, `\t` to `\r`), signs and underscores, and at least one digit |
| Text.SeparatorRefused | src/robotheus/__main__.py:22-25 | `int()` refuses text holding any of the separators `\x1c`-`\x1f`, which it does not strip as whitespace |
| Text.SeparatorPaddedFiveRefused | src/robotheus/__main__.py:22 | `int("\x1c5")` is refused |
| Text.IntToStringInjective | src/robotheus/record_tracker.py:33 | two window starts render to the same text only if they are equal |
| Keys.UsageKey | src/robotheus/dedup.py:30 | the key is the five fields verbatim with one separator between each two: four characters longer than the fields together, with no escaping or padding |
| Keys.CostKey | src/robotheus/record_tracker.py:44 | the cost key is provider, the literal `cost`, project and start verbatim, with one separator between each two |
| Keys.UsageKeySeparators | src/robotheus/record_tracker.py:33 | with pipe-free fields a usage key holds exactly four pipe characters |
| Keys.CostKeySeparators | src/robotheus/record_tracker.py:44 | with pipe-free fields a cost key holds exactly three pipe characters |
| Keys.UsageKeySegments | src/robotheus/record_tracker.py:22-33 | a usage key with pipe-free fields splits at the pipe character into exactly provider, model, project, key identifier and rendered start |
| Keys.CostKeySegments | src/robotheus/record_tracker.py:35-44 | a cost key with pipe-free fields splits into provider, the literal `cost`, project and rendered start |
| Keys.UsageKeyInjective | src/robotheus/dedup.py:19-30 | two usage windows with pipe-free fields get the same key if and only if they are the same window |
| Keys.CostKeyInjective | src/robotheus/record_tracker.py:35-44 | two cost windows with pipe-free fields get the same key if and only if they are the same window |
| Keys.UsageAndCostKeysDisjoint | src/robotheus/record_tracker.py:22-44 | with pipe-free fields, a usage key never equals a cost key, so both kinds can share one map |
| Keys.StartDecidesKey | src/robotheus/dedup.py:30 | windows equal except for the start get equal keys exactly when their starts are equal, for every field value |
| Keys.ProviderDecidesKey | src/robotheus/dedup.py:30 | windows equal except for the provider get equal keys exactly when their providers are equal, for every field value |
| Keys.CostStartDecidesKey | src/robotheus/record_tracker.py:44 | cost windows equal except for the start get equal keys exactly when their starts are equal, for every field value |
| Keys.PipeInFieldCollides | src/robotheus/dedup.py:30 | the "unique key" fails once a field contains a pipe character: two different windows render the same key |
| Dedup.IsNew | src/robotheus/dedup.py:32-51 | the answer is true exactly when the key was unseen; afterwards the key is seen and the set grew by that key alone |
| Dedup.FreshStoreAdmitsAll | src/robotheus/dedup.py:15-17 | a new store admits any window and then holds exactly that window's key |
| Dedup.SecondCallRejected | tests/test_dedup.py:18-28 | offering the same window a second time answers false and changes nothing |
| Dedup.AdmissionIndependent | tests/test_dedup.py:30-74 | with pipe-free fields, admitting one window does not change the answer for any different window |
| Dedup.StartOrProviderOnlyIndependent | tests/test_dedup.py:30-74 | windows that differ only in their start, or only in their provider, are admitted independently for every field value, pipes included |
| Dedup.OfferAllGrows | src/robotheus/dedup.py:4-17 | after any sequence of offers, the seen set is the old set plus exactly the offered keys, so no key is ever lost |
| Tracker.IsNewUsage | src/robotheus/record_tracker.py:46-65 | true exactly when the usage key is absent; the key is then stored with the window start; on false the tracker is unchanged |
| Tracker.IsNewCost | src/robotheus/record_tracker.py:67-82 | the same admit-once rule for the cost key, storing the window start |
| Tracker.UsageAdmissionIndependent | tests/test_record_tracker.py:30-75 | with pipe-free fields, admitting one usage window leaves the answer for any other usage window unchanged |
| Tracker.StartOrProviderOnlyIndependent | tests/test_record_tracker.py:30-75 | usage windows that differ only in their start, or only in their provider, are admitted independently for every field value, pipes included |
| Tracker.CostStartOnlyIndependent | src/robotheus/record_tracker.py:35-44 | cost windows that differ only in their start are admitted independently for every field value, pipes included |
| Tracker.CostAdmissionIndependent | src/robotheus/record_tracker.py:67-82 | with pipe-free fields, admitting one cost window leaves the answer for any other cost window unchanged |
| Tracker.UsageAndCostDoNotInterfere | src/robotheus/record_tracker.py:18-44 | with pipe-free fields, usage and cost entries share one dict without shadowing each other, in either order |
| Tracker.EvictBefore | src/robotheus/record_tracker.py:84-93 | exactly the entries whose start is before the cutoff are removed; others keep their values; the count returned is the number removed |
| Tracker.EvictedUsageReadmitted | src/robotheus/record_tracker.py:84-93 | a usage window evicted for age is admitted again afterwards |
| Tracker.RetainedUsageRejected | src/robotheus/record_tracker.py:84-93 | a usage window that survives eviction is still rejected |
| Tracker.EvictBelowAllRemovesNothing | tests/test_record_tracker.py:177-186 | a cutoff at or below every stored start evicts nothing |
| Tracker.EvictTwiceRemovesNothing | src/robotheus/record_tracker.py:89-93 | a second eviction with the same cutoff removes nothing more |
| Tracker.EvictionScenario | tests/test_record_tracker.py:134-175 | for any provider, model, project and key names, starts 1000 and 5000 with cutoff 3000: one entry is evicted, the 1000 window is admitted again and the 5000 window is still rejected |
| Metrics.RegisterProvider | src/robotheus/metrics.py:50-59 | the provider gains counter families if it had none; a known provider is left as it was; no counter reading changes |
| Metrics.FreshSinkReadsZero | src/robotheus/metrics.py:46-48 | a new sink has no provider: every counter reads zero, and every update fails with the record's provider as unknown |
| Metrics.RegisterIdempotent | tests/test_metrics.py:94-101 | registering a provider twice equals registering it once |
| Metrics.UpdateUsage | src/robotheus/metrics.py:61-78 | in the model, fails exactly for an unregistered provider (the source also raises on a negative count, see Left out); otherwise requests rise by the request count and input/output tokens by the token counts under the record's labels, and every other counter is unchanged |
| Metrics.UpdateCost | src/robotheus/metrics.py:80-85 | in the model, fails exactly for an unregistered provider (the source also raises on a negative amount, see Left out); otherwise only the cost counter of the record's project rises, by the amount |
| Collector.ApplyUsage | src/robotheus/collector.py:72-88 | the usage loop only adds keys to the store, and only keys of completed windows; it counts only completed windows and registers no provider |
| Collector.CountedOnlyIfNew | src/robotheus/collector.py:80-87 | a record is counted only if its key was unseen, no key is counted twice in a pass, and every counted key ends up seen |
| Collector.StoreWithoutFailure | src/robotheus/collector.py:75-87 | when the usage loop does not raise, the store gains exactly the counted keys and afterwards holds the key of every completed window |
| Collector.StoreOnFailure | src/robotheus/collector.py:80-89 | when the usage loop raises, the store gains the counted keys plus exactly the key of a completed, previously unseen record of an unregistered provider, which was not counted: the record whose sink update raised; nothing after that record is counted |
| Collector.StoreAccounting | src/robotheus/collector.py:75-89 | without a failure the store gains exactly the counted keys and holds every completed key; with one, it also gains the key of the record whose sink update raised, and nothing after that record is counted |
| Collector.UsageFailureCause | src/robotheus/collector.py:72-90 | a failure of the modelled usage loop comes from a completed, unseen record whose provider is not registered; negative counts, which also raise in the source, are left out |
| Collector.CountedInOrder | src/robotheus/collector.py:75-87 | records are counted in the order the provider returned them |
| Collector.UsageCounters | src/robotheus/collector.py:75-87 | each requests and tokens counter rises by the sum over the counted records with its labels; cost counters stay as they were |
| Collector.SecondPassCountsNothing | src/robotheus/collector.py:76-86 | when every completed key is already seen, a pass counts nothing, raises nothing and leaves the store unchanged |
| Collector.UsageTwiceCountsOnce | tests/test_collector.py:161-197 | after a pass that did not raise, the same records passed again count nothing |
| Collector.ApplyCosts | src/robotheus/collector.py:94-100 | the cost loop forwards a prefix of the records in order; in the model it stops exactly at the first unregistered provider, negative amounts being left out; without a failure it forwards them all |
| Collector.CostCounters | src/robotheus/collector.py:94-97 | each cost counter rises by the amounts forwarded for it; requests and tokens are unchanged |
| Collector.CostOutcomeDependsOnRegistrationOnly | src/robotheus/collector.py:94-100 | what the cost loop forwards depends on the sink only through which providers are registered |
| Collector.UsageStage | src/robotheus/collector.py:72-90 | a usage fetch that raised is caught: nothing is counted, store and sink are unchanged and a failure is recorded; otherwise completed records are counted in the order fetched and the store only grows |
| Collector.CostStage | src/robotheus/collector.py:94-100 | a cost fetch that raised is caught with the sink unchanged; otherwise a prefix of the fetched records is forwarded, all of them unless the loop raised |
| Collector.CollectProvider | src/robotheus/collector.py:62-100 | usage is fetched and processed before any cost event; cost is always fetched; each stage's failure is recorded exactly when it happened, and never propagates; the store only grows |
| Collector.StepCounters | src/robotheus/collector.py:62-100 | after one step, each counter equals its old reading plus the usage counted or the cost forwarded for it |
| Collector.CostIsolatedFromUsage | src/robotheus/collector.py:89-100 | whatever the usage fetch returned or raised, the cost stage forwards the same records and fails alike |
| Collector.CostsForwardedUnfiltered | src/robotheus/collector.py:94-97 | every cost record of a registered provider is forwarded with its amount, with no completeness or duplicate filter (negative amounts, which raise in the source, left out) |
| Collector.BothFetchesFail | tests/test_collector.py:199-210 | a provider whose two fetches both raise does not crash the step; both failures are logged and nothing changes |
| Collector.CollectTwiceCountsUsageOnce | tests/test_collector.py:161-197 | collecting the same usage twice counts it once: the second step counts nothing and leaves requests and tokens as they were |
| Collector.CollectTwiceCountsCostTwice | src/robotheus/collector.py:92-97 | a cost record returned in two steps adds its amount to the cost counter twice (for a negative amount the source raises instead) |
| Collector.SingleRecordScenario | tests/test_collector.py:70-120 | one completed usage record and one cost record raise requests, both token directions and cost by the record values |
| Collector.IncompleteUsageIgnored | tests/test_collector.py:122-159 | a usage record whose window has not elapsed is neither counted nor marked seen |
| Collector.ConsumedWithoutCount | src/robotheus/collector.py:80-90 | a record of an unregistered provider is marked seen before the sink raises, so it is never counted later, even after registration |
| Collector.CollectAll | src/robotheus/collector.py:52-56 | every provider of a cycle is collected for the same window, each starts by fetching usage, and only completed usage is counted |
| Collector.RoundCounters | src/robotheus/collector.py:52-56 | after a cycle's round, each counter is its old reading plus the usage counted and the cost forwarded by all provider steps together |
| Collector.Start | src/robotheus/collector.py:39 | the loop is entered with `lastScrape` set one interval before the start time, so the first window ends at the start time |
| Collector.Cycle | src/robotheus/collector.py:41-58 | a cycle collects `[lastScrape, lastScrape + interval)`, and the next window starts where this one ended |
| Collector.Run | src/robotheus/collector.py:35-60 | successive cycles collect windows of one interval each; each window starts where the previous one ended |
| Collector.RunWindowsClosedForm | src/robotheus/collector.py:39-58 | the window of cycle `i` is `[lastScrape + i*interval, lastScrape + (i+1)*interval)` |
| Collector.FirstWindowEndsAtStart | src/robotheus/collector.py:39-43 | a run started at `t0` first collects `[t0 - interval, t0)` |
| Collector.RunWindowsDisjoint | src/robotheus/collector.py:41-58 | with a positive interval, windows of different cycles never overlap and move forward in time |
| ListenAddress.LastIndexOf | src/robotheus/__main__.py:24 | finds the last `:` as `rsplit(":", 1)` does: none exactly when the text has no `:` |
| ListenAddress.ParseListenAddress | src/robotheus/__main__.py:17-25 | `:port` gives the wildcard host and is accepted exactly when `int()` accepts the rest; an address without `:` is refused; any other accepted address has as host the text before its last `:` |
| ListenAddress.SplitAtLastColon | src/robotheus/__main__.py:24-25 | without a leading `:`, host and port are the text before and after the last `:`, and the address is refused, with that port text, exactly when `int()` refuses it |
| ListenAddress.NonNumeralRefused | src/robotheus/__main__.py:25 | `int()` refuses a port with any character outside digits, ASCII whitespace (space, `\t` to `\r`), signs and underscores, so the separators `\x1c`-`\x1f` too |
| ListenAddress.ParseFormatRoundTrip | src/robotheus/__main__.py:24-25 | `host:port` parses back to `(host, port)` for every non-empty host not starting with `:`, even hosts with colons |
| ListenAddress.ParseFormatEmptyHost | src/robotheus/__main__.py:21-22 | `:port` parses to the wildcard host `0.0.0.0` and the port |
| ListenAddress.DefaultAddress | src/robotheus/cli.py:11-15 | the default `:9185` (also the default at config.py:9) binds every interface on port 9185 |
| ListenAddress.NonNumericPortRefused | src/robotheus/__main__.py:24-25 | a port containing any character other than digits, ASCII whitespace (space, `\t` to `\r`), signs and underscores is refused |
| ListenAddress.SeparatorInPortRefused | src/robotheus/__main__.py:21-22 | `:` followed by a port text holding any of `\x1c`-`\x1f`, even as padding around digits, is refused |
| ListenAddress.EmptyPortRefused | src/robotheus/__main__.py:21-25 | an address ending in `:` is refused whatever the host |
| ListenAddress.BareIPv6Refused | src/robotheus/__main__.py:21-22 | an address starting with `:` that has a second `:`, such as `::1:9185`, is refused |

## Left out

- Concurrency: `asyncio.gather` over providers and the stores' locks. Providers are collected one after another, and every store operation is atomic.
- Sleeping and the clock: `asyncio.sleep` is not modelled; `time.time()` is a parameter of each cycle.
- The infinite loop of `run`: `Collector.Run` covers any finite prefix of cycles.
- Logging through structlog: only the fact that a stage failed is kept, as a trace event.
- Prometheus internals: counter naming, help texts, the registry and exposition. Counters are maps from label tuples to values.
- Metrics.UpdateUsage: `Counter.inc` raises ValueError on a negative amount (metrics.py:72-78). In the source, a negative request count raises before any counter changes. A negative input-token count raises after the requests counter was raised, and a negative output-token count after requests and input tokens were raised. The model adds the negative amount instead, so its counters can go down, and the update succeeds.
- Metrics.UpdateCost: a negative `amount_usd` raises ValueError in the source (metrics.py:85); the model subtracts it from the cost counter and succeeds.
- Collector.UsageFailureCause: in the source, a negative count in a completed, unseen record also aborts the usage loop (collector.py:87-89), with its key consumed and possibly some counters already raised; the model's only failure cause is an unregistered provider.
- Collector.ApplyCosts: in the source, the cost loop also stops at the first record with a negative amount (collector.py:97-99); the model's cost loop stops only at an unregistered provider.
- Collector.CostsForwardedUnfiltered: holds in the source only for non-negative amounts; a negative amount raises and stops the cost loop.
- Collector.CollectTwiceCountsCostTwice: holds in the source only for a non-negative amount; the model also subtracts a negative amount twice.
- The failure mode of the field names as written: `collector.py` and `metrics.py` read `bucket_end`, `bucket_start` and `api_key`, which `models.py` does not declare. The model reads the declared fields instead.
- Floating point: cost amounts are exact `real`s, so rounding of float sums is not modelled.
- `int()` and `str()` beyond CPython's limit on decimal digits (4300 by default, `sys.get_int_max_str_digits`): CPython raises ValueError, so a port text with more digits is refused (__main__.py:22, 25) and a window start with more than 4300 digits makes `make_key` raise (dedup.py:30; likewise the key builders at record_tracker.py:33, 44), which the usage stage catches (collector.py:89). `Text.ParseInt` and `Text.IntToString` have no such limit.
- `int()` on non-ASCII text: Unicode digits and non-ASCII Unicode whitespace are not modelled. The ASCII separators `\x1c`-`\x1f` are not whitespace to `int()` and are refused, as in the model.
- The providers' HTTP clients, pagination, the project-name cache and `close()`, and the protocol declaration in `provider/base.py`: a provider is only what its fetches returned.
- `cli.py`, `config.py`, `logging.py` and `main()` in `__main__.py`: configuration, command-line parsing and process start-up, outside the collection core.
- `RecordTracker.cost_delta`: the record-tracker tests call it, but `record_tracker.py` defines no such method.
- Keys.UsageKeyInjective: holds only for fields without `|`, because the source's keys do not escape the separator; `Keys.PipeInFieldCollides` shows the collision otherwise.
- Tracker.EvictBefore: the order in which keys are deleted is not modelled; the result does not depend on it.

=== FILE: collector.dfy ===
/**
 The collector: one provider step (usage first, then cost, as two separate
 failure domains), one cycle over all providers for the window
 `[lastScrape, lastScrape + interval)`, and the run loop that advances the
 window. Providers are abstracted to what their fetches returned, the clock to
 a `now` parameter per cycle, and providers run one after another with every
 store operation atomic.
 */
module Collector {
  import opened Keys
  import opened Records
  import opened Results
  import Dedup
  import opened Metrics

  /** A fetch that raised; the exception itself is only logged. */
  datatype Raised = Raised

  /** What one fetch returned: the records, or a raised error. */
  type Fetch<T> = Result<seq<T>, Raised>

  /** What a provider step does, in order: fetches, sink calls that counted something, logged failures. */
  datatype Event =
    | FetchUsage(start: int, end: int)
    | CountUsage(usage: UsageRecord)
    | UsageFailed
    | FetchCosts(start: int, end: int)
    | CountCost(cost: CostRecord)
    | CostFailed
  {
    predicate UsageStage() {
      FetchUsage? || CountUsage? || UsageFailed?
    }
  }

  // ---------------------------------------------------------------------------
  // Helpers over record sequences

  function KeyOf(rec: UsageRecord): string {
    UsageKey(rec.Id())
  }

  /** The dedup keys of `recs`. */
  function KeysOf(recs: seq<UsageRecord>): set<string>
    decreases |recs|
  {
    if |recs| == 0 then {} else {KeyOf(recs[0])} + KeysOf(recs[1..])
  }

  /** The dedup keys of the records in `recs` whose window has elapsed at `now`. */
  function CompleteKeys(recs: seq<UsageRecord>, now: int): set<string>
    decreases |recs|
  {
    if |recs| == 0 then {}
    else (if recs[0].Complete(now) then {KeyOf(recs[0])} else {}) + CompleteKeys(recs[1..], now)
  }

  /** No two records of `recs` share a dedup key. */
  predicate DistinctKeys(recs: seq<UsageRecord>)
    decreases |recs|
  {
    |recs| == 0 || (KeyOf(recs[0]) !in KeysOf(recs[1..]) && DistinctKeys(recs[1..]))
  }

  /** `xs` is `ys` with some elements left out, the rest in their original order. */
  predicate IsSubsequence<T(==)>(xs: seq<T>, ys: seq<T>)
    decreases |ys|
  {
    if |xs| == 0 then true
    else if |ys| == 0 then false
    else (xs[0] == ys[0] && IsSubsequence(xs[1..], ys[1..])) || IsSubsequence(xs, ys[1..])
  }

  function RequestSum(recs: seq<UsageRecord>, p: string, l: UsageLabels): int
    decreases |recs|
  {
    if |recs| == 0 then 0 else RequestDelta(recs[0], p, l) + RequestSum(recs[1..], p, l)
  }

  function TokenSum(recs: seq<UsageRecord>, p: string, l: UsageLabels, d: Direction): int
    decreases |recs|
  {
    if |recs| == 0 then 0 else TokenDelta(recs[0], p, l, d) + TokenSum(recs[1..], p, l, d)
  }

  function CostSum(recs: seq<CostRecord>, p: string, project: string): real
    decreases |recs|
  {
    if |recs| == 0 then 0.0 else CostDelta(recs[0], p, project) + CostSum(recs[1..], p, project)
  }

  // ---------------------------------------------------------------------------
  // The usage stage

  /** The state after the usage loop: store, sink, records counted, and whether the loop raised. */
  datatype UsagePass = UsagePass(store: Dedup.Store, sink: Sink, counted: seq<UsageRecord>, failed: bool)

  /**
   The loop over fetched usage records: a record whose window has not elapsed
   is skipped; otherwise the store is asked, and an admitted record goes to
   the sink. A sink failure aborts the rest of the loop, with the failing
   record's key already marked seen. Only completed windows are counted or
   enter the store.
   */
  function ApplyUsage(records: seq<UsageRecord>, now: int, store: Dedup.Store, sink: Sink): (r: UsagePass)
    ensures store.seen <= r.store.seen <= store.seen + CompleteKeys(records, now)
    ensures r.sink.providers.Keys == sink.providers.Keys
    ensures forall i :: 0 <= i < |r.counted| ==> r.counted[i].Complete(now)
    decreases |records|
  {
    if |records| == 0 then UsagePass(store, sink, [], false)
    else
      var rec := records[0];
      if !rec.Complete(now) then ApplyUsage(records[1..], now, store, sink)
      else
        var (admitted, store1) := Dedup.IsNew(store, rec.Id());
        if !admitted then ApplyUsage(records[1..], now, store1, sink)
        else
          match UpdateUsage(sink, rec)
          case Err(_) => UsagePass(store1, sink, [], true)
          case Ok(sink1) =>
            var rest := ApplyUsage(records[1..], now, store1, sink1);
            UsagePass(rest.store, rest.sink, [rec] + rest.counted, rest.failed)
  }

  lemma TailOfCons<T>(x: T, xs: seq<T>)
    ensures ([x] + xs)[1..] == xs
    ensures ([x] + xs)[0] == x
  {
  }

  /**
   A record is counted only if its key was not already in the store, no key
   is counted twice within a pass, and every counted key ends up in the store.
   */
  lemma {:induction false} CountedOnlyIfNew(records: seq<UsageRecord>, now: int, store: Dedup.Store, sink: Sink)
    ensures var r := ApplyUsage(records, now, store, sink);
            && KeysOf(r.counted) !! store.seen
            && DistinctKeys(r.counted)
            && KeysOf(r.counted) <= r.store.seen
    decreases |records|
  {
    if |records| > 0 {
      var rec := records[0];
      if !rec.Complete(now) {
        CountedOnlyIfNew(records[1..], now, store, sink);
      } else {
        var (admitted, store1) := Dedup.IsNew(store, rec.Id());
        if !admitted {
          CountedOnlyIfNew(records[1..], now, store1, sink);
        } else if UpdateUsage(sink, rec).Ok? {
          var sink1 := UpdateUsage(sink, rec).value;
          CountedOnlyIfNew(records[1..], now, store1, sink1);
          var rest := ApplyUsage(records[1..], now, store1, sink1);
          TailOfCons(rec, rest.counted);
        }
      }
    }
  }

  /** Without a failure, the store gains exactly the counted keys and then holds every completed key. */
  lemma {:induction false} StoreWithoutFailure(records: seq<UsageRecord>, now: int, store: Dedup.Store, sink: Sink)
    ensures var r := ApplyUsage(records, now, store, sink);
            !r.failed ==> r.store.seen == store.seen + KeysOf(r.counted) && CompleteKeys(records, now) <= r.store.seen
    decreases |records|
  {
    if |records| > 0 {
      var rec := records[0];
      if !rec.Complete(now) {
        StoreWithoutFailure(records[1..], now, store, sink);
      } else {
        var (admitted, store1) := Dedup.IsNew(store, rec.Id());
        if !admitted {
          StoreWithoutFailure(records[1..], now, store1, sink);
        } else if UpdateUsage(sink, rec).Ok? {
          var sink1 := UpdateUsage(sink, rec).value;
          StoreWithoutFailure(records[1..], now, store1, sink1);
          TailOfCons(rec, ApplyUsage(records[1..], now, store1, sink1).counted);
        }
      }
    }
  }

  /**
   `records[i]` is the record whose sink update raised in pass `r`: completed,
   not seen before, of an unregistered provider, the one key the store gained
   beyond the counted ones, and the end of the pass: every counted record
   comes before it.
   */
  predicate RaisedAt(records: seq<UsageRecord>, now: int, store: Dedup.Store, sink: Sink, r: UsagePass, i: int) {
    && 0 <= i < |records| && records[i].Complete(now)
    && IsSubsequence(r.counted, records[..i])
    && records[i].provider !in sink.providers
    && KeyOf(records[i]) !in store.seen
    && KeyOf(records[i]) !in KeysOf(r.counted)
    && r.store.seen == store.seen + KeysOf(r.counted) + {KeyOf(records[i])}
  }

  lemma RaisedAtShift(records: seq<UsageRecord>, now: int, store: Dedup.Store, sink: Sink, r: UsagePass, j: int)
    requires |records| > 0 && RaisedAt(records[1..], now, store, sink, r, j)
    ensures RaisedAt(records, now, store, sink, r, j + 1)
  {
    assert records[j + 1] == records[1..][j];
    assert records[..j + 1][1..] == records[1..][..j];
  }

  lemma RaisedAtAfterCount(
    records: seq<UsageRecord>, now: int, store: Dedup.Store, sink: Sink,
    store1: Dedup.Store, sink1: Sink, rest: UsagePass, r: UsagePass, j: int)
    requires |records| > 0
    requires KeyOf(records[0]) !in store.seen && store1.seen == store.seen + {KeyOf(records[0])}
    requires sink1.providers.Keys == sink.providers.Keys
    requires r.store == rest.store && r.counted == [records[0]] + rest.counted
    requires RaisedAt(records[1..], now, store1, sink1, rest, j)
    ensures RaisedAt(records, now, store, sink, r, j + 1)
  {
    TailOfCons(records[0], rest.counted);
    assert records[j + 1] == records[1..][j];
    assert records[..j + 1][1..] == records[1..][..j];
    assert KeysOf(r.counted) == {KeyOf(records[0])} + KeysOf(rest.counted);
  }

  /**
   With a failure, the store gains one key beyond the counted ones: that of a
   completed, previously unseen record of an unregistered provider, whose sink
   update raised after the store had admitted it. The loop stops there:
   nothing after that record is counted.
   */
  lemma {:induction false} StoreOnFailure(records: seq<UsageRecord>, now: int, store: Dedup.Store, sink: Sink)
    ensures var r := ApplyUsage(records, now, store, sink);
            r.failed ==> exists i :: RaisedAt(records, now, store, sink, r, i)
    decreases |records|
  {
    var r := ApplyUsage(records, now, store, sink);
    if |records| > 0 && r.failed {
      var rec := records[0];
      var tail := records[1..];
      var (admitted, store1) := Dedup.IsNew(store, rec.Id());
      if !rec.Complete(now) {
        assert r == ApplyUsage(tail, now, store, sink);
        StoreOnFailure(tail, now, store, sink);
        var j :| RaisedAt(tail, now, store, sink, r, j);
        RaisedAtShift(records, now, store, sink, r, j);
      } else if !admitted {
        assert store1 == store;
        assert r == ApplyUsage(tail, now, store, sink);
        StoreOnFailure(tail, now, store, sink);
        var j :| RaisedAt(tail, now, store, sink, r, j);
        RaisedAtShift(records, now, store, sink, r, j);
      } else if UpdateUsage(sink, rec).Ok? {
        var sink1 := UpdateUsage(sink, rec).value;
        var rest := ApplyUsage(tail, now, store1, sink1);
        assert r == UsagePass(rest.store, rest.sink, [rec] + rest.counted, rest.failed);
        StoreOnFailure(tail, now, store1, sink1);
        var j :| RaisedAt(tail, now, store1, sink1, rest, j);
        RaisedAtAfterCount(records, now, store, sink, store1, sink1, rest, r, j);
      } else {
        assert r == UsagePass(store1, sink, [], true);
        assert RaisedAt(records, now, store, sink, r, 0);
      }
    }
  }

  /**
   Without a failure, the store gains exactly the keys that were counted, and
   every completed window's key is then in the store. With a failure, the
   store gains one key more: that of the record whose sink update raised,
   which is thereby consumed without being counted, and no record after it is
   counted.
   */
  lemma StoreAccounting(records: seq<UsageRecord>, now: int, store: Dedup.Store, sink: Sink)
    ensures var r := ApplyUsage(records, now, store, sink);
            && (!r.failed ==> r.store.seen == store.seen + KeysOf(r.counted))
            && (!r.failed ==> CompleteKeys(records, now) <= r.store.seen)
            && (r.failed ==> exists i :: RaisedAt(records, now, store, sink, r, i))
  {
    StoreWithoutFailure(records, now, store, sink);
    StoreOnFailure(records, now, store, sink);
  }

  /** The usage loop fails only on a completed, not yet seen record whose provider is not registered. */
  lemma {:induction false} UsageFailureCause(records: seq<UsageRecord>, now: int, store: Dedup.Store, sink: Sink)
    ensures ApplyUsage(records, now, store, sink).failed ==>
              exists i :: && 0 <= i < |records| && records[i].Complete(now)
                          && KeyOf(records[i]) !in store.seen
                          && records[i].provider !in sink.providers
    decreases |records|
  {
    if |records| > 0 {
      var rec := records[0];
      var tail := records[1..];
      if rec.Complete(now) && KeyOf(rec) !in store.seen && rec.provider !in sink.providers {
        assert records[0] == rec;
      } else if ApplyUsage(records, now, store, sink).failed {
        var (admitted, store1) := Dedup.IsNew(store, rec.Id());
        var sink1 := if rec.Complete(now) && admitted then UpdateUsage(sink, rec).value else sink;
        UsageFailureCause(tail, now, if rec.Complete(now) then store1 else store, sink1);
        var j :| 0 <= j < |tail| && tail[j].Complete(now) && KeyOf(tail[j]) !in store.seen
                 && tail[j].provider !in sink.providers;
        assert records[j + 1] == tail[j];
      }
    }
  }

  /** Records are counted in the order the provider returned them. */
  lemma {:induction false} CountedInOrder(records: seq<UsageRecord>, now: int, store: Dedup.Store, sink: Sink)
    ensures IsSubsequence(ApplyUsage(records, now, store, sink).counted, records)
    decreases |records|
  {
    if |records| > 0 {
      var rec := records[0];
      if !rec.Complete(now) {
        CountedInOrder(records[1..], now, store, sink);
      } else {
        var (admitted, store1) := Dedup.IsNew(store, rec.Id());
        if !admitted {
          CountedInOrder(records[1..], now, store1, sink);
        } else if UpdateUsage(sink, rec).Ok? {
          var sink1 := UpdateUsage(sink, rec).value;
          CountedInOrder(records[1..], now, store1, sink1);
          TailOfCons(rec, ApplyUsage(records[1..], now, store1, sink1).counted);
        }
      }
    }
  }

  /**
   The usage loop raises each requests and tokens counter by the sum over
   the counted records that carry its labels, and leaves every cost counter
   as it was.
   */
  lemma {:induction false} UsageCounters(records: seq<UsageRecord>, now: int, store: Dedup.Store, sink: Sink)
    ensures var r := ApplyUsage(records, now, store, sink);
            && (forall p, l :: Requests(r.sink, p, l) == Requests(sink, p, l) + RequestSum(r.counted, p, l))
            && (forall p, l, d :: Tokens(r.sink, p, l, d) == Tokens(sink, p, l, d) + TokenSum(r.counted, p, l, d))
            && (forall p, j :: Cost(r.sink, p, j) == Cost(sink, p, j))
    decreases |records|
  {
    if |records| > 0 {
      var rec := records[0];
      if !rec.Complete(now) {
        UsageCounters(records[1..], now, store, sink);
      } else {
        var (admitted, store1) := Dedup.IsNew(store, rec.Id());
        if !admitted {
          UsageCounters(records[1..], now, store1, sink);
        } else if UpdateUsage(sink, rec).Ok? {
          var sink1 := UpdateUsage(sink, rec).value;
          UsageCounters(records[1..], now, store1, sink1);
          TailOfCons(rec, ApplyUsage(records[1..], now, store1, sink1).counted);
        }
      }
    }
  }

  /**
   A pass over records whose completed keys are all already in the store
   counts nothing, raises nothing and leaves the store unchanged: two passes
   over the same records count each window once.
   */
  lemma SecondPassCountsNothing(records: seq<UsageRecord>, now: int, store: Dedup.Store, sink: Sink)
    requires CompleteKeys(records, now) <= store.seen
    ensures var r := ApplyUsage(records, now, store, sink);
            r.counted == [] && !r.failed && r.store == store
  {
    var r := ApplyUsage(records, now, store, sink);
    CountedOnlyIfNew(records, now, store, sink);
    StoreAccounting(records, now, store, sink);
  }

  /** After a pass that did not raise, the same records passed again count nothing. */
  lemma UsageTwiceCountsOnce(records: seq<UsageRecord>, now: int, store: Dedup.Store, sink: Sink)
    requires !ApplyUsage(records, now, store, sink).failed
    ensures var r1 := ApplyUsage(records, now, store, sink);
            ApplyUsage(records, now, r1.store, r1.sink).counted == []
  {
    StoreAccounting(records, now, store, sink);
    var r1 := ApplyUsage(records, now, store, sink);
    SecondPassCountsNothing(records, now, r1.store, r1.sink);
  }

  // ---------------------------------------------------------------------------
  // The cost stage

  /** The state after the cost loop: sink, records forwarded, and whether the loop raised. */
  datatype CostPass = CostPass(sink: Sink, counted: seq<CostRecord>, failed: bool)

  /**
   The loop over fetched cost records: every record goes to the sink with its
   raw amount, with no completeness filter and no deduplication, in order,
   until the first record whose provider is not registered raises.
   */
  function ApplyCosts(records: seq<CostRecord>, sink: Sink): (r: CostPass)
    ensures r.sink.providers.Keys == sink.providers.Keys
    ensures |r.counted| <= |records| && r.counted == records[..|r.counted|]
    ensures forall i :: 0 <= i < |r.counted| ==> r.counted[i].provider in sink.providers
    ensures r.failed ==> |r.counted| < |records| && records[|r.counted|].provider !in sink.providers
    ensures !r.failed ==> r.counted == records
    decreases |records|
  {
    if |records| == 0 then CostPass(sink, [], false)
    else
      match UpdateCost(sink, records[0])
      case Err(_) => CostPass(sink, [], true)
      case Ok(sink1) =>
        var rest := ApplyCosts(records[1..], sink1);
        TailOfCons(records[0], rest.counted);
        assert records == [records[0]] + records[1..];
        CostPass(rest.sink, [records[0]] + rest.counted, rest.failed)
  }

  /** The cost loop raises each cost counter by the amounts forwarded for it and nothing else. */
  lemma {:induction false} CostCounters(records: seq<CostRecord>, sink: Sink)
    ensures var r := ApplyCosts(records, sink);
            && (forall p, l :: Requests(r.sink, p, l) == Requests(sink, p, l))
            && (forall p, l, d :: Tokens(r.sink, p, l, d) == Tokens(sink, p, l, d))
            && (forall p, j :: Cost(r.sink, p, j) == Cost(sink, p, j) + CostSum(r.counted, p, j))
    decreases |records|
  {
    if |records| > 0 && UpdateCost(sink, records[0]).Ok? {
      var sink1 := UpdateCost(sink, records[0]).value;
      CostCounters(records[1..], sink1);
      TailOfCons(records[0], ApplyCosts(records[1..], sink1).counted);
    }
  }

  /** What the cost loop forwards depends on the sink only through which providers are registered. */
  lemma CostOutcomeDependsOnRegistrationOnly(records: seq<CostRecord>, s1: Sink, s2: Sink)
    requires s1.providers.Keys == s2.providers.Keys
    ensures ApplyCosts(records, s1).counted == ApplyCosts(records, s2).counted
    ensures ApplyCosts(records, s1).failed == ApplyCosts(records, s2).failed
  {
  }

  // ---------------------------------------------------------------------------
  // One provider step

  /**
   The usage stage: a fetch that raised is caught before anything is counted
   and leaves store and sink alone; otherwise the loop counts completed
   records, in the order fetched, and the store only grows.
   */
  function UsageStage(fetch: Fetch<UsageRecord>, now: int, store: Dedup.Store, sink: Sink): (r: UsagePass)
    ensures fetch.Err? ==> r.failed && r.counted == [] && r.store == store && r.sink == sink
    ensures fetch.Ok? ==> IsSubsequence(r.counted, fetch.value)
    ensures forall i :: 0 <= i < |r.counted| ==> r.counted[i].Complete(now)
    ensures store.seen <= r.store.seen
    ensures r.sink.providers.Keys == sink.providers.Keys
  {
    match fetch
    case Err(_) => UsagePass(store, sink, [], true)
    case Ok(records) =>
      CountedInOrder(records, now, store, sink);
      ApplyUsage(records, now, store, sink)
  }

  /**
   The cost stage: a fetch that raised is caught before anything is forwarded
   and leaves the sink alone; otherwise a prefix of the fetched records is
   forwarded, all of them unless the loop raised.
   */
  function CostStage(fetch: Fetch<CostRecord>, sink: Sink): (r: CostPass)
    ensures fetch.Err? ==> r.failed && r.counted == [] && r.sink == sink
    ensures fetch.Ok? ==> |r.counted| <= |fetch.value| && r.counted == fetch.value[..|r.counted|]
    ensures fetch.Ok? && !r.failed ==> r.counted == fetch.value
    ensures r.sink.providers.Keys == sink.providers.Keys
  {
    match fetch
    case Err(_) => CostPass(sink, [], true)
    case Ok(records) => ApplyCosts(records, sink)
  }

  function CountUsageEvents(recs: seq<UsageRecord>): (es: seq<Event>)
    ensures |es| == |recs|
    ensures forall i :: 0 <= i < |es| ==> es[i] == CountUsage(recs[i])
  {
    seq(|recs|, i requires 0 <= i < |recs| => CountUsage(recs[i]))
  }

  function CountCostEvents(recs: seq<CostRecord>): (es: seq<Event>)
    ensures |es| == |recs|
    ensures forall i :: 0 <= i < |es| ==> es[i] == CountCost(recs[i])
  {
    seq(|recs|, i requires 0 <= i < |recs| => CountCost(recs[i]))
  }

  /** The events of the usage stage: the fetch, one event per counted record, and the failure if any. */
  function UsageTrace(start: int, end: int, u: UsagePass): (t: seq<Event>)
    ensures |t| > 0 && t[0] == FetchUsage(start, end)
    ensures forall i :: 0 <= i < |t| ==> t[i].UsageStage()
    ensures UsageFailed in t <==> u.failed
    ensures CostFailed !in t && FetchCosts(start, end) !in t
  {
    [FetchUsage(start, end)] + CountUsageEvents(u.counted) + (if u.failed then [UsageFailed] else [])
  }

  /** The events of the cost stage: the fetch, one event per forwarded record, and the failure if any. */
  function CostTrace(start: int, end: int, c: CostPass): (t: seq<Event>)
    ensures |t| > 0 && t[0] == FetchCosts(start, end)
    ensures forall i :: 0 <= i < |t| ==> !t[i].UsageStage()
    ensures CostFailed in t <==> c.failed
    ensures UsageFailed !in t
  {
    [FetchCosts(start, end)] + CountCostEvents(c.counted) + (if c.failed then [CostFailed] else [])
  }

  /** The outcome of one provider step. */
  datatype Step = Step(
    store: Dedup.Store,
    sink: Sink,
    usage: seq<UsageRecord>,
    usageFailed: bool,
    costs: seq<CostRecord>,
    costFailed: bool,
    trace: seq<Event>)

  /**
   One provider's collection for the window `[start, end)`: usage is fetched
   and processed first, then cost is fetched and processed whatever happened
   to usage. Errors of either stage are caught and logged, never propagated.
   */
  function CollectProvider(
    usage: Fetch<UsageRecord>, costs: Fetch<CostRecord>,
    start: int, end: int, now: int, store: Dedup.Store, sink: Sink): (r: Step)
    ensures |r.trace| > 0 && r.trace[0] == FetchUsage(start, end)
    ensures FetchCosts(start, end) in r.trace
    ensures forall i, j :: 0 <= i < j < |r.trace| && r.trace[j].UsageStage() ==> r.trace[i].UsageStage()
    ensures UsageFailed in r.trace <==> r.usageFailed
    ensures CostFailed in r.trace <==> r.costFailed
    ensures usage.Err? ==> r.usageFailed && r.usage == [] && r.store == store
    ensures costs.Err? ==> r.costFailed && r.costs == []
    ensures store.seen <= r.store.seen
    ensures r.sink.providers.Keys == sink.providers.Keys
    ensures forall i :: 0 <= i < |r.usage| ==> r.usage[i].Complete(now)
  {
    var u := UsageStage(usage, now, store, sink);
    var c := CostStage(costs, u.sink);
    var usageTrace := UsageTrace(start, end, u);
    var costTrace := CostTrace(start, end, c);
    StagesInOrder(usageTrace, costTrace);
    assert (usageTrace + costTrace)[|usageTrace|] == FetchCosts(start, end);
    Step(u.store, c.sink, u.counted, u.failed, c.counted, c.failed, usageTrace + costTrace)
  }

  lemma StagesInOrder(usageTrace: seq<Event>, costTrace: seq<Event>)
    requires forall i :: 0 <= i < |usageTrace| ==> usageTrace[i].UsageStage()
    requires forall i :: 0 <= i < |costTrace| ==> !costTrace[i].UsageStage()
    ensures var t := usageTrace + costTrace;
            forall i, j :: 0 <= i < j < |t| && t[j].UsageStage() ==> t[i].UsageStage()
  {
  }

  /**
   A provider step raises each requests and tokens counter by the usage it
   counted and each cost counter by the amounts it forwarded.
   */
  lemma StepCounters(
    usage: Fetch<UsageRecord>, costs: Fetch<CostRecord>,
    start: int, end: int, now: int, store: Dedup.Store, sink: Sink)
    ensures var r := CollectProvider(usage, costs, start, end, now, store, sink);
            && (forall p, l :: Requests(r.sink, p, l) == Requests(sink, p, l) + RequestSum(r.usage, p, l))
            && (forall p, l, d :: Tokens(r.sink, p, l, d) == Tokens(sink, p, l, d) + TokenSum(r.usage, p, l, d))
            && (forall p, j :: Cost(r.sink, p, j) == Cost(sink, p, j) + CostSum(r.costs, p, j))
  {
    if usage.Ok? {
      UsageCounters(usage.value, now, store, sink);
    }
    var u := UsageStage(usage, now, store, sink);
    if costs.Ok? {
      CostCounters(costs.value, u.sink);
    }
  }

  /**
   Usage and cost are separate failure domains: whatever the usage fetch
   returned or raised, the cost stage forwards the same records and fails or
   succeeds alike.
   */
  lemma CostIsolatedFromUsage(
    u1: Fetch<UsageRecord>, u2: Fetch<UsageRecord>, costs: Fetch<CostRecord>,
    start: int, end: int, now: int, store: Dedup.Store, sink: Sink)
    ensures var r1 := CollectProvider(u1, costs, start, end, now, store, sink);
            var r2 := CollectProvider(u2, costs, start, end, now, store, sink);
            r1.costs == r2.costs && r1.costFailed == r2.costFailed
  {
    if costs.Ok? {
      var s1 := UsageStage(u1, now, store, sink).sink;
      var s2 := UsageStage(u2, now, store, sink).sink;
      CostOutcomeDependsOnRegistrationOnly(costs.value, s1, s2);
    }
  }

  /**
   Every fetched cost record of a registered provider is forwarded, in order,
   with its raw amount: windows still in progress and windows forwarded
   before are not filtered out.
   */
  lemma CostsForwardedUnfiltered(
    usage: Fetch<UsageRecord>, records: seq<CostRecord>,
    start: int, end: int, now: int, store: Dedup.Store, sink: Sink)
    requires forall i :: 0 <= i < |records| ==> records[i].provider in sink.providers
    ensures var r := CollectProvider(usage, Ok(records), start, end, now, store, sink);
            r.costs == records && !r.costFailed
  {
  }

  /** When both fetches raise, the step still completes: both failures are logged and nothing changes. */
  lemma BothFetchesFail(start: int, end: int, now: int, store: Dedup.Store, sink: Sink)
    ensures var r := CollectProvider(Err(Raised), Err(Raised), start, end, now, store, sink);
            && r.usageFailed && r.costFailed
            && UsageFailed in r.trace && CostFailed in r.trace
            && r.store == store && r.sink == sink
  {
  }

  /**
   Two collection passes over the same usage records count each completed
   window once: after a first pass whose usage stage did not raise, the
   second counts no usage and leaves every requests and tokens counter as
   the first pass left it.
   */
  lemma CollectTwiceCountsUsageOnce(
    records: seq<UsageRecord>, c1: Fetch<CostRecord>, c2: Fetch<CostRecord>,
    start: int, end: int, now: int, store: Dedup.Store, sink: Sink)
    requires !CollectProvider(Ok(records), c1, start, end, now, store, sink).usageFailed
    ensures var r1 := CollectProvider(Ok(records), c1, start, end, now, store, sink);
            var r2 := CollectProvider(Ok(records), c2, start, end, now, r1.store, r1.sink);
            && r2.usage == []
            && r2.store == r1.store
            && (forall p, l :: Requests(r2.sink, p, l) == Requests(r1.sink, p, l))
            && (forall p, l, d :: Tokens(r2.sink, p, l, d) == Tokens(r1.sink, p, l, d))
  {
    var r1 := CollectProvider(Ok(records), c1, start, end, now, store, sink);
    var u1 := ApplyUsage(records, now, store, sink);
    StoreAccounting(records, now, store, sink);
    assert CompleteKeys(records, now) <= r1.store.seen;
    SecondPassCountsNothing(records, now, r1.store, r1.sink);
    StepCounters(Ok(records), c2, start, end, now, r1.store, r1.sink);
  }

  /**
   Cost is not deduplicated: the same cost record collected in two passes
   adds its amount to the cost counter twice.
   */
  lemma CollectTwiceCountsCostTwice(
    u1: Fetch<UsageRecord>, u2: Fetch<UsageRecord>, c: CostRecord,
    start: int, end: int, now: int, store: Dedup.Store, sink: Sink)
    requires c.provider in sink.providers
    ensures var r1 := CollectProvider(u1, Ok([c]), start, end, now, store, sink);
            var r2 := CollectProvider(u2, Ok([c]), start, end, now, r1.store, r1.sink);
            Cost(r2.sink, c.provider, c.project) == Cost(sink, c.provider, c.project) + 2.0 * c.amountUsd
  {
    var r1 := CollectProvider(u1, Ok([c]), start, end, now, store, sink);
    CostsForwardedUnfiltered(u1, [c], start, end, now, store, sink);
    StepCounters(u1, Ok([c]), start, end, now, store, sink);
    CostsForwardedUnfiltered(u2, [c], start, end, now, r1.store, r1.sink);
    StepCounters(u2, Ok([c]), start, end, now, r1.store, r1.sink);
    assert CostSum([c], c.provider, c.project) == c.amountUsd;
  }

  /**
   One completed usage record and one cost record of a registered provider:
   after one step the requests, input-token, output-token and cost counters
   have risen by the record's request count, token counts and amount.
   */
  lemma SingleRecordScenario(
    u: UsageRecord, c: CostRecord,
    start: int, end: int, now: int, store: Dedup.Store, sink: Sink)
    requires u.Complete(now) && KeyOf(u) !in store.seen
    requires u.provider in sink.providers && c.provider in sink.providers
    ensures var r := CollectProvider(Ok([u]), Ok([c]), start, end, now, store, sink);
            var l := LabelsOf(u);
            && r.usage == [u] && r.costs == [c]
            && Requests(r.sink, u.provider, l) == Requests(sink, u.provider, l) + u.requestCount
            && Tokens(r.sink, u.provider, l, Input) == Tokens(sink, u.provider, l, Input) + u.inputTokens
            && Tokens(r.sink, u.provider, l, Output) == Tokens(sink, u.provider, l, Output) + u.outputTokens
            && Cost(r.sink, c.provider, c.project) == Cost(sink, c.provider, c.project) + c.amountUsd
  {
    var r := CollectProvider(Ok([u]), Ok([c]), start, end, now, store, sink);
    assert [u][1..] == [];
    var (_, store1) := Dedup.IsNew(store, u.Id());
    var sink1 := UpdateUsage(sink, u).value;
    assert ApplyUsage([], now, store1, sink1).counted == [];
    assert ApplyUsage([u], now, store, sink).counted == [u];
    CostsForwardedUnfiltered(Ok([u]), [c], start, end, now, store, sink);
    StepCounters(Ok([u]), Ok([c]), start, end, now, store, sink);
    assert RequestSum([u], u.provider, LabelsOf(u)) == u.requestCount;
    assert TokenSum([u], u.provider, LabelsOf(u), Input) == u.inputTokens;
    assert TokenSum([u], u.provider, LabelsOf(u), Output) == u.outputTokens;
    assert CostSum([c], c.provider, c.project) == c.amountUsd;
  }

  /** A usage record whose window has not elapsed is neither counted nor marked seen. */
  lemma IncompleteUsageIgnored(
    u: UsageRecord, costs: Fetch<CostRecord>,
    start: int, end: int, now: int, store: Dedup.Store, sink: Sink)
    requires !u.Complete(now)
    ensures var r := CollectProvider(Ok([u]), costs, start, end, now, store, sink);
            r.usage == [] && r.store == store && !r.usageFailed
  {
    assert [u][1..] == [];
    assert ApplyUsage([u], now, store, sink) == ApplyUsage([], now, store, sink);
  }

  /**
   A completed record of an unregistered provider makes the sink raise after
   the store admitted it: its key is consumed without anything being counted,
   and a later pass, even once the provider is registered, skips it.
   */
  lemma ConsumedWithoutCount(
    u: UsageRecord, costs: Fetch<CostRecord>,
    start: int, end: int, now: int, store: Dedup.Store, sink: Sink)
    requires u.Complete(now) && KeyOf(u) !in store.seen
    requires u.provider !in sink.providers
    ensures var r := CollectProvider(Ok([u]), costs, start, end, now, store, sink);
            && r.usageFailed && r.usage == []
            && KeyOf(u) in r.store.seen
            && CollectProvider(Ok([u]), costs, start, end, now, r.store,
                               RegisterProvider(r.sink, u.provider)).usage == []
  {
    var r := CollectProvider(Ok([u]), costs, start, end, now, store, sink);
    assert [u][1..] == [];
    assert CompleteKeys([u], now) <= r.store.seen;
    SecondPassCountsNothing([u], now, r.store, RegisterProvider(r.sink, u.provider));
  }

  // ---------------------------------------------------------------------------
  // One cycle over all providers, and the run loop

  /** What one provider's fetches returned in a cycle. */
  datatype Reply = Reply(usage: Fetch<UsageRecord>, costs: Fetch<CostRecord>)

  /**
   Store, sink and per-provider traces after every provider has been
   collected, with the usage counted and the cost forwarded by all steps, in
   provider order.
   */
  datatype Round = Round(
    store: Dedup.Store, sink: Sink, traces: seq<seq<Event>>,
    usage: seq<UsageRecord>, costs: seq<CostRecord>)

  /** All providers of a cycle, one after another, sharing the store and the sink. */
  function CollectAll(replies: seq<Reply>, start: int, end: int, now: int, store: Dedup.Store, sink: Sink): (r: Round)
    ensures |r.traces| == |replies|
    ensures forall i :: 0 <= i < |r.traces| ==>
              |r.traces[i]| > 0 && r.traces[i][0] == FetchUsage(start, end) && FetchCosts(start, end) in r.traces[i]
    ensures store.seen <= r.store.seen
    ensures r.sink.providers.Keys == sink.providers.Keys
    ensures forall i :: 0 <= i < |r.usage| ==> r.usage[i].Complete(now)
    decreases |replies|
  {
    if |replies| == 0 then Round(store, sink, [], [], [])
    else
      var s := CollectProvider(replies[0].usage, replies[0].costs, start, end, now, store, sink);
      var rest := CollectAll(replies[1..], start, end, now, s.store, s.sink);
      TailOfCons(s.trace, rest.traces);
      Round(rest.store, rest.sink, [s.trace] + rest.traces, s.usage + rest.usage, s.costs + rest.costs)
  }

  lemma {:induction false} RequestSumAppend(a: seq<UsageRecord>, b: seq<UsageRecord>, p: string, l: UsageLabels)
    ensures RequestSum(a + b, p, l) == RequestSum(a, p, l) + RequestSum(b, p, l)
    decreases |a|
  {
    if |a| > 0 {
      assert (a + b)[0] == a[0] && (a + b)[1..] == a[1..] + b;
      RequestSumAppend(a[1..], b, p, l);
    } else {
      assert a + b == b;
    }
  }

  lemma {:induction false} TokenSumAppend(a: seq<UsageRecord>, b: seq<UsageRecord>, p: string, l: UsageLabels, d: Direction)
    ensures TokenSum(a + b, p, l, d) == TokenSum(a, p, l, d) + TokenSum(b, p, l, d)
    decreases |a|
  {
    if |a| > 0 {
      assert (a + b)[0] == a[0] && (a + b)[1..] == a[1..] + b;
      TokenSumAppend(a[1..], b, p, l, d);
    } else {
      assert a + b == b;
    }
  }

  lemma {:induction false} CostSumAppend(a: seq<CostRecord>, b: seq<CostRecord>, p: string, project: string)
    ensures CostSum(a + b, p, project) == CostSum(a, p, project) + CostSum(b, p, project)
    decreases |a|
  {
    if |a| > 0 {
      assert (a + b)[0] == a[0] && (a + b)[1..] == a[1..] + b;
      CostSumAppend(a[1..], b, p, project);
    } else {
      assert a + b == b;
    }
  }

  /**
   After a round, each counter is its old reading plus the usage counted and
   the cost forwarded by all provider steps together: the steps' effects add
   up, and no step's counts are lost to a later one.
   */
  lemma {:induction false} RoundCounters(replies: seq<Reply>, start: int, end: int, now: int, store: Dedup.Store, sink: Sink)
    ensures var r := CollectAll(replies, start, end, now, store, sink);
            && (forall p, l :: Requests(r.sink, p, l) == Requests(sink, p, l) + RequestSum(r.usage, p, l))
            && (forall p, l, d :: Tokens(r.sink, p, l, d) == Tokens(sink, p, l, d) + TokenSum(r.usage, p, l, d))
            && (forall p, j :: Cost(r.sink, p, j) == Cost(sink, p, j) + CostSum(r.costs, p, j))
    decreases |replies|
  {
    if |replies| > 0 {
      var s := CollectProvider(replies[0].usage, replies[0].costs, start, end, now, store, sink);
      var rest := CollectAll(replies[1..], start, end, now, s.store, s.sink);
      var r := CollectAll(replies, start, end, now, store, sink);
      assert r.sink == rest.sink && r.usage == s.usage + rest.usage && r.costs == s.costs + rest.costs;
      StepCounters(replies[0].usage, replies[0].costs, start, end, now, store, sink);
      RoundCounters(replies[1..], start, end, now, s.store, s.sink);
      forall p, l ensures Requests(r.sink, p, l) == Requests(sink, p, l) + RequestSum(r.usage, p, l) {
        RequestSumAppend(s.usage, rest.usage, p, l);
      }
      forall p, l, d ensures Tokens(r.sink, p, l, d) == Tokens(sink, p, l, d) + TokenSum(r.usage, p, l, d) {
        TokenSumAppend(s.usage, rest.usage, p, l, d);
      }
      forall p, j ensures Cost(r.sink, p, j) == Cost(sink, p, j) + CostSum(r.costs, p, j) {
        CostSumAppend(s.costs, rest.costs, p, j);
      }
    }
  }

  /** A half-open window `[start, end)` of unix seconds. */
  datatype Window = Window(start: int, end: int)

  /** The collector between cycles: shared store and sink, the interval, and where the next window starts. */
  datatype Collector = Collector(store: Dedup.Store, sink: Sink, interval: int, lastScrape: int)

  /** What one cycle sees: the clock reading and each provider's fetch results. */
  datatype CycleInput = CycleInput(now: int, replies: seq<Reply>)

  /** The state `run` enters its loop with, started at unix time `t0`: the first window ends at `t0`. */
  function Start(store: Dedup.Store, sink: Sink, interval: int, t0: int): (c: Collector)
    ensures c.lastScrape + c.interval == t0
    ensures c.interval == interval && c.store == store && c.sink == sink
  {
    Collector(store, sink, interval, t0 - interval)
  }

  /** The result of one cycle: the next state, the window collected, and each provider's trace. */
  datatype CycleResult = CycleResult(next: Collector, window: Window, traces: seq<seq<Event>>)

  /**
   One cycle: every provider is collected for `[lastScrape, lastScrape + interval)`,
   and only then does the next window start where this one ended.
   */
  function Cycle(c: Collector, input: CycleInput): (r: CycleResult)
    ensures r.window == Window(c.lastScrape, c.lastScrape + c.interval)
    ensures r.next.lastScrape == r.window.end && r.next.interval == c.interval
    ensures |r.traces| == |input.replies|
    ensures forall i :: 0 <= i < |r.traces| ==>
              |r.traces[i]| > 0 && r.traces[i][0] == FetchUsage(r.window.start, r.window.end)
    ensures c.store.seen <= r.next.store.seen
  {
    var w := Window(c.lastScrape, c.lastScrape + c.interval);
    var round := CollectAll(input.replies, w.start, w.end, input.now, c.store, c.sink);
    CycleResult(Collector(round.store, round.sink, c.interval, w.end), w, round.traces)
  }

  /** The state after a finite prefix of the loop, and the windows it collected, in order. */
  datatype RunLog = RunLog(final: Collector, windows: seq<Window>)

  /** The first `|inputs|` cycles of `run`. */
  function Run(c: Collector, inputs: seq<CycleInput>): (r: RunLog)
    ensures |r.windows| == |inputs|
    ensures r.final.interval == c.interval
    ensures |inputs| > 0 ==> r.windows[0].start == c.lastScrape
    ensures forall i :: 0 <= i < |r.windows| ==> r.windows[i].end == r.windows[i].start + c.interval
    ensures forall i :: 0 <= i < |r.windows| - 1 ==> r.windows[i].end == r.windows[i + 1].start
    ensures r.final.lastScrape == if |inputs| == 0 then c.lastScrape else r.windows[|inputs| - 1].end
    decreases |inputs|
  {
    if |inputs| == 0 then RunLog(c, [])
    else
      var step := Cycle(c, inputs[0]);
      var rest := Run(step.next, inputs[1..]);
      TailOfCons(step.window, rest.windows);
      RunLog(rest.final, [step.window] + rest.windows)
  }

  lemma ShiftedMultiple(base: int, step: int, i: int)
    requires i > 0
    ensures base + step + (i - 1) * step == base + i * step
    ensures base + step + i * step == base + (i + 1) * step
  {
  }

  /** The window collected by cycle `i` of a run whose first window starts at `first`. */
  function NthWindow(first: int, interval: int, i: int): Window {
    Window(first + i * interval, first + (i + 1) * interval)
  }

  /**
   Windows that start at `first`, each `interval` wide, each starting where
   the previous one ended: window `i` is `NthWindow(first, interval, i)`.
   */
  lemma {:induction false} ContiguousWindows(ws: seq<Window>, first: int, interval: int, i: int)
    requires |ws| > 0 && ws[0].start == first
    requires forall k :: 0 <= k < |ws| ==> ws[k].end == ws[k].start + interval
    requires forall k :: 0 <= k < |ws| - 1 ==> ws[k].end == ws[k + 1].start
    requires 0 <= i < |ws|
    ensures ws[i] == NthWindow(first, interval, i)
    decreases i
  {
    if i > 0 {
      ContiguousWindows(ws, first, interval, i - 1);
      assert ws[i].start == ws[i - 1].end;
      ShiftedMultiple(first, interval, i);
    }
  }

  /** The `i`-th window is `[lastScrape + i*interval, lastScrape + (i+1)*interval)`. */
  lemma RunWindowsClosedForm(c: Collector, inputs: seq<CycleInput>)
    ensures var ws := Run(c, inputs).windows;
            forall i :: 0 <= i < |ws| ==> ws[i] == NthWindow(c.lastScrape, c.interval, i)
  {
    var ws := Run(c, inputs).windows;
    forall i | 0 <= i < |ws| ensures ws[i] == NthWindow(c.lastScrape, c.interval, i) {
      ContiguousWindows(ws, c.lastScrape, c.interval, i);
    }
  }

  /** The run loop started at `t0` first collects `[t0 - interval, t0)`. */
  lemma FirstWindowEndsAtStart(store: Dedup.Store, sink: Sink, interval: int, t0: int, inputs: seq<CycleInput>)
    requires |inputs| > 0
    ensures Run(Start(store, sink, interval, t0), inputs).windows[0] == Window(t0 - interval, t0)
  {
    var c := Start(store, sink, interval, t0);
    var ws := Run(c, inputs).windows;
    assert ws[0].start == c.lastScrape == t0 - interval;
    assert ws[0].end == ws[0].start + interval;
  }

  lemma MultipleMonotone(step: int, a: int, b: int)
    requires step > 0 && a <= b
    ensures a * step <= b * step
  {
  }

  /** With a positive interval, windows of different cycles never overlap and move forward in time. */
  lemma RunWindowsDisjoint(c: Collector, inputs: seq<CycleInput>)
    requires c.interval > 0
    ensures var ws := Run(c, inputs).windows;
            forall i, j :: 0 <= i < j < |ws| ==> ws[i].end <= ws[j].start
  {
    var ws := Run(c, inputs).windows;
    RunWindowsClosedForm(c, inputs);
    forall i, j | 0 <= i < j < |ws| ensures ws[i].end <= ws[j].start {
      assert ws[i] == NthWindow(c.lastScrape, c.interval, i);
      assert ws[j] == NthWindow(c.lastScrape, c.interval, j);
      MultipleMonotone(c.interval, i + 1, j);
    }
  }
}

=== FILE: dedup.dfy ===
/**
 The deduplication store the collector consults before counting a usage
 window: a set of usage keys that only ever grows. Each operation is atomic,
 as the store's lock makes it.
 */
module Dedup {
  import opened Keys

  datatype Store = Store(seen: set<string>)

  const Empty: Store := Store({})

  /**
   Admits a usage window the first time its key is offered: the answer is
   `true` exactly when the key was not yet present, and afterwards the key is
   present and nothing else has changed.
   */
  function IsNew(store: Store, id: UsageId): (r: (bool, Store))
    ensures r.0 <==> UsageKey(id) !in store.seen
    ensures UsageKey(id) in r.1.seen
    ensures r.1.seen == store.seen + {UsageKey(id)}
    ensures |r.1.seen| == |store.seen| + (if r.0 then 1 else 0)
  {
    var key := UsageKey(id);
    if key in store.seen then (false, store) else (true, Store(store.seen + {key}))
  }

  /** A fresh store admits any window, and then holds exactly its key. */
  lemma FreshStoreAdmitsAll(id: UsageId)
    ensures IsNew(Empty, id).0
    ensures IsNew(Empty, id).1.seen == {UsageKey(id)}
  {
  }

  /** Offering the same window twice: the second answer is `false`. */
  lemma SecondCallRejected(store: Store, id: UsageId)
    ensures IsNew(store, id).0 ==> !IsNew(IsNew(store, id).1, id).0
    ensures IsNew(IsNew(store, id).1, id).1 == IsNew(store, id).1
  {
  }

  /**
   With pipe-free fields, admitting one window does not change the answer for
   any other window.
   */
  lemma AdmissionIndependent(store: Store, a: UsageId, b: UsageId)
    requires UsageIdPipeFree(a) && UsageIdPipeFree(b)
    requires a != b
    ensures IsNew(IsNew(store, a).1, b).0 == IsNew(store, b).0
  {
    UsageKeyInjective(a, b);
  }

  /**
   Windows that differ only in their start, or only in their provider, are
   admitted independently whatever their fields hold, pipes included.
   */
  lemma StartOrProviderOnlyIndependent(store: Store, a: UsageId, b: UsageId)
    requires a.(start := 0) == b.(start := 0) || a.(provider := "") == b.(provider := "")
    requires a != b
    ensures IsNew(IsNew(store, a).1, b).0 == IsNew(store, b).0
  {
    if a.(start := 0) == b.(start := 0) {
      StartDecidesKey(a, b);
    } else {
      ProviderDecidesKey(a, b);
    }
  }

  /** The store after offering `ids` in order. */
  function OfferAll(store: Store, ids: seq<UsageId>): Store
    decreases |ids|
  {
    if |ids| == 0 then store else OfferAll(IsNew(store, ids[0]).1, ids[1..])
  }

  /** The keys of the windows in `ids`. */
  function OfferedKeys(ids: seq<UsageId>): set<string> {
    set i | 0 <= i < |ids| :: UsageKey(ids[i])
  }

  lemma OfferedKeysCons(ids: seq<UsageId>)
    requires |ids| > 0
    ensures OfferedKeys(ids) == {UsageKey(ids[0])} + OfferedKeys(ids[1..])
  {
    forall k | k in OfferedKeys(ids) ensures k in {UsageKey(ids[0])} + OfferedKeys(ids[1..]) {
      var i :| 0 <= i < |ids| && UsageKey(ids[i]) == k;
      if i > 0 { assert ids[1..][i - 1] == ids[i]; }
    }
    forall k | k in OfferedKeys(ids[1..]) ensures k in OfferedKeys(ids) {
      var i :| 0 <= i < |ids[1..]| && UsageKey(ids[1..][i]) == k;
      assert ids[i + 1] == ids[1..][i];
    }
  }

  /** No sequence of calls removes a key: the seen set only grows, by exactly the offered keys. */
  lemma {:induction false} OfferAllGrows(store: Store, ids: seq<UsageId>)
    ensures OfferAll(store, ids).seen == store.seen + OfferedKeys(ids)
    decreases |ids|
  {
    if |ids| > 0 {
      OfferAllGrows(IsNew(store, ids[0]).1, ids[1..]);
      OfferedKeysCons(ids);
    }
  }
}

=== FILE: keys.dfy ===
/**
 Deduplication keys. `DeduplicationStore.make_key` and
 `RecordTracker._make_usage_key` both render a usage window as
 `provider|model|project|api_key|start`; `RecordTracker._make_cost_key`
 renders a cost window as `provider|cost|project|start`. The keys are plain
 strings, so they identify their window only while no field contains `|`.
 */
module Keys {
  import opened Text

  /** The separator the f-string keys put between fields. */
  const Sep: char := '|'

  /** The fields that identify one usage window: provider, model, project, API-key identifier, window start. */
  datatype UsageId = UsageId(provider: string, model: string, project: string, apiKeyId: string, start: int)

  /** The fields that identify one cost window: provider, project, window start. */
  datatype CostId = CostId(provider: string, project: string, start: int)

  predicate PipeFree(s: string) {
    Sep !in s
  }

  predicate UsageIdPipeFree(id: UsageId) {
    PipeFree(id.provider) && PipeFree(id.model) && PipeFree(id.project) && PipeFree(id.apiKeyId)
  }

  predicate CostIdPipeFree(id: CostId) {
    PipeFree(id.provider) && PipeFree(id.project)
  }

  /** `provider|model|project|api_key|start`: the fields verbatim, with one separator between each two. */
  function UsageKey(id: UsageId): (k: string)
    ensures |k| == |id.provider| + |id.model| + |id.project| + |id.apiKeyId| + |IntToString(id.start)| + 4
  {
    id.provider + "|" + id.model + "|" + id.project + "|" + id.apiKeyId + "|" + IntToString(id.start)
  }

  /** `provider|cost|project|start`: the fields verbatim around the literal `cost`, with one separator between each two. */
  function CostKey(id: CostId): (k: string)
    ensures |k| == |id.provider| + |id.project| + |IntToString(id.start)| + 7
  {
    id.provider + "|cost|" + id.project + "|" + IntToString(id.start)
  }

  lemma RenderedIntPipeFree(n: int)
    ensures PipeFree(IntToString(n))
  {
    var s := IntToString(n);
    assert forall i :: 0 <= i < |s| ==> s[i] != Sep;
  }

  /** With pipe-free fields a usage key holds exactly four separators, so it has five segments. */
  lemma UsageKeySeparators(id: UsageId)
    requires UsageIdPipeFree(id)
    ensures multiset(UsageKey(id))[Sep] == 4
  {
    RenderedIntPipeFree(id.start);
    assert multiset(id.provider)[Sep] == 0 && multiset(id.model)[Sep] == 0;
    assert multiset(id.project)[Sep] == 0 && multiset(id.apiKeyId)[Sep] == 0;
    assert multiset(IntToString(id.start))[Sep] == 0;
  }

  /** With pipe-free fields a cost key holds exactly three separators, so it has four segments. */
  lemma CostKeySeparators(id: CostId)
    requires CostIdPipeFree(id)
    ensures multiset(CostKey(id))[Sep] == 3
  {
    RenderedIntPipeFree(id.start);
    assert multiset(id.provider)[Sep] == 0 && multiset(id.project)[Sep] == 0;
    assert multiset(IntToString(id.start))[Sep] == 0;
    assert multiset("cost")[Sep] == 0;
  }

  /** A usage key splits back into exactly its five fields. */
  lemma UsageKeySegments(id: UsageId)
    requires UsageIdPipeFree(id)
    ensures Split(UsageKey(id), Sep) == [id.provider, id.model, id.project, id.apiKeyId, IntToString(id.start)]
  {
    var parts := [id.provider, id.model, id.project, id.apiKeyId, IntToString(id.start)];
    RenderedIntPipeFree(id.start);
    assert Join(parts, Sep) == UsageKey(id) by {
      var t := IntToString(id.start);
      assert Join(parts[4..], Sep) == t;
      assert Join(parts[3..], Sep) == id.apiKeyId + "|" + t;
      assert Join(parts[2..], Sep) == id.project + "|" + id.apiKeyId + "|" + t;
      assert Join(parts[1..], Sep) == id.model + "|" + id.project + "|" + id.apiKeyId + "|" + t;
    }
    SplitJoin(parts, Sep);
  }

  /** A cost key splits back into four fields, the second being the literal `cost`. */
  lemma CostKeySegments(id: CostId)
    requires CostIdPipeFree(id)
    ensures Split(CostKey(id), Sep) == [id.provider, "cost", id.project, IntToString(id.start)]
  {
    var parts := [id.provider, "cost", id.project, IntToString(id.start)];
    RenderedIntPipeFree(id.start);
    assert Join(parts, Sep) == CostKey(id) by {
      var t := IntToString(id.start);
      assert Join(parts[3..], Sep) == t;
      assert Join(parts[2..], Sep) == id.project + "|" + t;
      assert Join(parts[1..], Sep) == "cost|" + id.project + "|" + t;
    }
    SplitJoin(parts, Sep);
  }

  /** Distinct usage windows get distinct keys while no field contains `|`. */
  lemma UsageKeyInjective(a: UsageId, b: UsageId)
    requires UsageIdPipeFree(a) && UsageIdPipeFree(b)
    ensures UsageKey(a) == UsageKey(b) <==> a == b
  {
    if UsageKey(a) == UsageKey(b) {
      UsageKeySegments(a);
      UsageKeySegments(b);
      IntToStringInjective(a.start, b.start);
    }
  }

  /** Distinct cost windows get distinct keys while no field contains `|`. */
  lemma CostKeyInjective(a: CostId, b: CostId)
    requires CostIdPipeFree(a) && CostIdPipeFree(b)
    ensures CostKey(a) == CostKey(b) <==> a == b
  {
    if CostKey(a) == CostKey(b) {
      CostKeySegments(a);
      CostKeySegments(b);
      IntToStringInjective(a.start, b.start);
    }
  }

  /**
   Windows that agree on everything but the start get the same key exactly
   when the starts agree, whatever the fields hold: the start is the key's
   suffix after a common prefix.
   */
  lemma StartDecidesKey(a: UsageId, b: UsageId)
    requires a.(start := 0) == b.(start := 0)
    ensures UsageKey(a) == UsageKey(b) <==> a == b
  {
    var prefix := a.provider + "|" + a.model + "|" + a.project + "|" + a.apiKeyId + "|";
    assert UsageKey(a) == prefix + IntToString(a.start);
    assert UsageKey(b) == prefix + IntToString(b.start);
    if UsageKey(a) == UsageKey(b) {
      assert UsageKey(a)[|prefix|..] == IntToString(a.start);
      assert UsageKey(b)[|prefix|..] == IntToString(b.start);
      IntToStringInjective(a.start, b.start);
    }
  }

  /**
   Windows that agree on everything but the provider get the same key exactly
   when the providers agree, whatever the fields hold: the provider is the
   key's prefix before a common suffix.
   */
  lemma ProviderDecidesKey(a: UsageId, b: UsageId)
    requires a.(provider := "") == b.(provider := "")
    ensures UsageKey(a) == UsageKey(b) <==> a == b
  {
    var suffix := "|" + a.model + "|" + a.project + "|" + a.apiKeyId + "|" + IntToString(a.start);
    assert UsageKey(a) == a.provider + suffix;
    assert UsageKey(b) == b.provider + suffix;
    if UsageKey(a) == UsageKey(b) {
      assert UsageKey(a)[..|a.provider|] == a.provider;
      assert UsageKey(b)[..|b.provider|] == b.provider;
    }
  }

  /** Cost windows that agree on everything but the start get the same key exactly when the starts agree. */
  lemma CostStartDecidesKey(a: CostId, b: CostId)
    requires a.(start := 0) == b.(start := 0)
    ensures CostKey(a) == CostKey(b) <==> a == b
  {
    var prefix := a.provider + "|cost|" + a.project + "|";
    assert CostKey(a) == prefix + IntToString(a.start);
    assert CostKey(b) == prefix + IntToString(b.start);
    if CostKey(a) == CostKey(b) {
      assert CostKey(a)[|prefix|..] == IntToString(a.start);
      assert CostKey(b)[|prefix|..] == IntToString(b.start);
      IntToStringInjective(a.start, b.start);
    }
  }

  /** With pipe-free fields, a usage key never equals a cost key: five segments against four. */
  lemma UsageAndCostKeysDisjoint(u: UsageId, c: CostId)
    requires UsageIdPipeFree(u) && CostIdPipeFree(c)
    ensures UsageKey(u) != CostKey(c)
  {
    UsageKeySegments(u);
    CostKeySegments(c);
  }

  /** Without the `|` restriction the keys are not unique: two different windows share one key. */
  lemma PipeInFieldCollides()
    ensures UsageId("a|b", "m", "p", "k", 0) != UsageId("a", "b|m", "p", "k", 0)
    ensures UsageKey(UsageId("a|b", "m", "p", "k", 0)) == UsageKey(UsageId("a", "b|m", "p", "k", 0))
  {
    assert IntToString(0) == "0";
    assert "a|b" + "|" + "m" == "a" + "|" + "b|m";
  }
}

=== FILE: listen_address.dfy ===
/**
 The exporter's listen-address parser. An address that starts with `:` binds
 every interface; otherwise the text is split at its last `:` into a host,
 which may itself contain colons, and a port read with Python's `int()`.
 Failures are the ValueErrors the source lets propagate.
 */
module ListenAddress {
  import opened Results
  import opened Text

  /** Why an address was refused: no `:` to split at, or a port `int()` rejects. */
  datatype AddressError = NoColon | BadPort(text: string)

  /** The host used when the address gives none. */
  const AnyHost: string := "0.0.0.0"

  /** The index of the last occurrence of `c` in `s`. */
  function LastIndexOf(s: string, c: char): (r: Option<nat>)
    ensures r.None? <==> c !in s
    ensures r.Some? ==> LastAt(s, c, r.value)
    decreases |s|
  {
    if |s| == 0 then None
    else if s[|s| - 1] == c then Some(|s| - 1)
    else
      var r := LastIndexOf(s[..|s| - 1], c);
      LastIndexOfStep(s, c, r);
      r
  }

  /** The last occurrence in `s` is the last one in `s` without its final character, when that character is not `c`. */
  lemma LastIndexOfStep(s: string, c: char, r: Option<nat>)
    requires |s| > 0 && s[|s| - 1] != c
    requires r.None? <==> c !in s[..|s| - 1]
    requires r.Some? ==> LastAt(s[..|s| - 1], c, r.value)
    ensures r.None? <==> c !in s
    ensures r.Some? ==> LastAt(s, c, r.value)
  {
    var p := s[..|s| - 1];
    assert s == p + [s[|s| - 1]];
    if r.Some? {
      assert s[r.value + 1..] == p[r.value + 1..] + [s[|s| - 1]];
    }
  }

  /** `s[i]` is the last occurrence of `c` in `s`. */
  predicate LastAt(s: string, c: char, i: int) {
    0 <= i < |s| && s[i] == c && c !in s[i + 1..]
  }

  /** At most one occurrence of `c` has no `c` after it. */
  lemma LastAtUnique(s: string, c: char, i: int, j: int)
    requires LastAt(s, c, i) && LastAt(s, c, j)
    ensures i == j
  {
  }

  /**
   `":port"` yields the wildcard host and the port; otherwise the address must
   contain a `:`, the host is everything before the last one and the port is
   the integer after it.
   */
  function ParseListenAddress(addr: string): (r: Result<(string, int), AddressError>)
    ensures |addr| > 0 && addr[0] == ':' ==>
              && (r.Ok? <==> ParseInt(addr[1..]).Some?)
              && (r.Ok? ==> r.value == (AnyHost, ParseInt(addr[1..]).value))
    ensures ':' !in addr ==> r == Err(NoColon)
    ensures r.Ok? && addr[0] != ':' ==> exists i :: LastAt(addr, ':', i) && r.value.0 == addr[..i]
  {
    if |addr| > 0 && addr[0] == ':' then
      match ParseInt(addr[1..])
      case None => Err(BadPort(addr[1..]))
      case Some(port) => Ok((AnyHost, port))
    else
      match LastIndexOf(addr, ':')
      case None => Err(NoColon)
      case Some(i) => SplitAt(addr, i)
  }

  /** Splits `addr` at index `i` into the host before it and the port after it. */
  function SplitAt(addr: string, i: nat): Result<(string, int), AddressError>
    requires i < |addr|
  {
    match ParseInt(addr[i + 1..])
    case None => Err(BadPort(addr[i + 1..]))
    case Some(port) => Ok((addr[..i], port))
  }

  /**
   Without a leading `:`, the host is the text before the last `:` and the
   port is `int()` of the text after it; the address is refused exactly when
   `int()` refuses that text.
   */
  lemma SplitAtLastColon(addr: string, i: int)
    requires LastAt(addr, ':', i) && addr[0] != ':'
    ensures ParseListenAddress(addr).Ok? <==> ParseInt(addr[i + 1..]).Some?
    ensures ParseListenAddress(addr).Ok? ==> ParseListenAddress(addr).value == (addr[..i], ParseInt(addr[i + 1..]).value)
    ensures ParseListenAddress(addr).Err? ==> ParseListenAddress(addr).error == BadPort(addr[i + 1..])
  {
    SplitsAtLastColon(addr, i);
  }

  /** Without a leading `:`, the parser splits at the last `:`. */
  lemma SplitsAtLastColon(addr: string, i: int)
    requires LastAt(addr, ':', i) && addr[0] != ':'
    ensures ParseListenAddress(addr) == SplitAt(addr, i)
  {
    assert addr[i] == ':';
    LastAtUnique(addr, ':', i, LastIndexOf(addr, ':').value);
  }

  /** The text form of a host and port: `host:port`. */
  function FormatListenAddress(host: string, port: int): string {
    host + ":" + IntToString(port)
  }

  lemma RenderedIntColonFree(n: int)
    ensures ':' !in IntToString(n)
  {
    var t := IntToString(n);
    forall i | 0 <= i < |t| ensures t[i] != ':' { }
  }

  /**
   Parsing inverts formatting for every host that is non-empty and does not
   start with `:`, including hosts that contain colons.
   */
  lemma ParseFormatRoundTrip(host: string, port: int)
    requires host != [] && host[0] != ':'
    ensures ParseListenAddress(FormatListenAddress(host, port)) == Ok((host, port))
  {
    var t := IntToString(port);
    var addr := FormatListenAddress(host, port);
    RenderedIntColonFree(port);
    assert addr[|host| + 1..] == t;
    assert addr[..|host|] == host;
    assert addr[0] == host[0];
    assert LastAt(addr, ':', |host|);
    ParseIntToString(port);
  }

  /** Formatting with an empty host gives `:port`, which parses back to the wildcard host. */
  lemma ParseFormatEmptyHost(port: int)
    ensures ParseListenAddress(FormatListenAddress("", port)) == Ok((AnyHost, port))
  {
    var addr := FormatListenAddress("", port);
    assert addr[1..] == IntToString(port);
    ParseIntToString(port);
  }

  /** `int()` refuses text with a character outside digits, whitespace, signs and underscores. */
  lemma NonNumeralRefused(s: string, k: int)
    requires 0 <= k < |s| && !IsNumeralChar(s[k])
    ensures ParseInt(s).None?
  {
    if ParseInt(s).Some? {
      ParseIntAcceptsOnlyNumerals(s);
    }
  }

  /** A port text containing anything but digits, whitespace, signs and underscores is refused. */
  lemma NonNumericPortRefused(addr: string, i: int)
    requires LastAt(addr, ':', i)
    requires exists j :: i < j < |addr| && !IsNumeralChar(addr[j])
    ensures ParseListenAddress(addr).Err?
  {
    var j :| i < j < |addr| && !IsNumeralChar(addr[j]);
    if addr[0] == ':' {
      var rest := addr[1..];
      assert rest[j - 1] == addr[j];
      NonNumeralRefused(rest, j - 1);
    } else {
      var port := addr[i + 1..];
      assert port[j - i - 1] == addr[j];
      NonNumeralRefused(port, j - i - 1);
      SplitAtLastColon(addr, i);
    }
  }

  /** A port text holding one of the separators \x1c-\x1f is refused, even as padding around digits. */
  lemma SeparatorInPortRefused(port: string, k: int)
    requires 0 <= k < |port| && 28 <= port[k] as int <= 31
    ensures ParseListenAddress(":" + port).Err?
  {
    var addr := ":" + port;
    assert addr[1..] == port;
    SeparatorRefused(port, k);
  }

  lemma Render9185()
    ensures IntToString(9185) == "9185"
  {
    assert NatToString(9) == "9";
    assert NatToString(91) == "91";
    assert NatToString(918) == "918";
  }

  /** The default `:9185` binds every interface on port 9185. */
  lemma DefaultAddress()
    ensures ParseListenAddress(":9185") == Ok((AnyHost, 9185))
  {
    Render9185();
    ParseFormatEmptyHost(9185);
    assert FormatListenAddress("", 9185) == ":9185";
  }

  /** An empty port is refused whatever the host. */
  lemma EmptyPortRefused(host: string)
    ensures ParseListenAddress(host + ":").Err?
  {
    var addr := host + ":";
    assert Strip("") == "";
    if host == [] {
      assert addr[1..] == "";
    } else if host[0] == ':' {
      assert addr[1..][|host| - 1] == ':';
      NonNumeralRefused(addr[1..], |host| - 1);
    } else {
      assert addr[|host| + 1..] == "";
      assert LastAt(addr, ':', |host|);
      SplitAtLastColon(addr, |host|);
    }
  }

  /**
   A bare IPv6 address such as `::1:9185` is refused: its leading `:` sends
   the whole remainder, colons included, to `int()`.
   */
  lemma BareIPv6Refused(addr: string)
    requires |addr| > 0 && addr[0] == ':' && ':' in addr[1..]
    ensures ParseListenAddress(addr).Err?
  {
    var j :| 0 <= j < |addr[1..]| && addr[1..][j] == ':';
    NonNumeralRefused(addr[1..], j);
  }
}

=== FILE: metrics.dfy ===
/**
 The metrics sink, with the Prometheus counters replaced by maps from label
 tuples to values. Each registered provider owns three counter families:
 requests by (model, project, api_key), tokens by (model, project, api_key,
 direction) and cost in US dollars by project. A label tuple that was never
 incremented reads as zero.
 */
module Metrics {
  import opened Results
  import opened Records

  /** The `direction` label of the tokens family: "input" or "output". */
  datatype Direction = Input | Output

  /** The (model, project, api_key) labels shared by the requests and tokens families. */
  datatype UsageLabels = UsageLabels(model: string, project: string, apiKey: string)

  /** One provider's counter families. */
  datatype Families = Families(
    requests: map<UsageLabels, int>,
    tokens: map<(UsageLabels, Direction), int>,
    cost: map<string, real>)

  /** The provider table: provider name to its families. */
  datatype Sink = Sink(providers: map<string, Families>)

  /** The lookup of an unregistered provider, which raises KeyError. */
  datatype SinkError = UnknownProvider(name: string)

  const NoFamilies: Families := Families(map[], map[], map[])

  const Empty: Sink := Sink(map[])

  function Get<K, V>(m: map<K, V>, k: K, zero: V): V {
    if k in m then m[k] else zero
  }

  /** The reading of the requests counter of `provider` for labels `l`. */
  function Requests(s: Sink, provider: string, l: UsageLabels): int {
    if provider in s.providers then Get(s.providers[provider].requests, l, 0) else 0
  }

  /** The reading of the tokens counter of `provider` for labels `l` and direction `d`. */
  function Tokens(s: Sink, provider: string, l: UsageLabels, d: Direction): int {
    if provider in s.providers then Get(s.providers[provider].tokens, (l, d), 0) else 0
  }

  /** The reading of the cost counter of `provider` for `project`. */
  function Cost(s: Sink, provider: string, project: string): real {
    if provider in s.providers then Get(s.providers[provider].cost, project, 0.0) else 0.0
  }

  function LabelsOf(rec: UsageRecord): UsageLabels {
    UsageLabels(rec.model, rec.project, rec.apiKeyId)
  }

  /** What one usage record adds to the requests counter of (`p`, `l`). */
  function RequestDelta(rec: UsageRecord, p: string, l: UsageLabels): int {
    if p == rec.provider && l == LabelsOf(rec) then rec.requestCount else 0
  }

  /** What one usage record adds to the tokens counter of (`p`, `l`, `d`). */
  function TokenDelta(rec: UsageRecord, p: string, l: UsageLabels, d: Direction): int {
    if p == rec.provider && l == LabelsOf(rec) then
      (if d == Input then rec.inputTokens else rec.outputTokens)
    else 0
  }

  /** What one cost record adds to the cost counter of (`p`, `project`). */
  function CostDelta(rec: CostRecord, p: string, project: string): real {
    if p == rec.provider && project == rec.project then rec.amountUsd else 0.0
  }

  /**
   A fresh sink knows no provider: every counter reads zero and every update
   fails until the record's provider is registered.
   */
  lemma FreshSinkReadsZero(p: string, l: UsageLabels, d: Direction, project: string, u: UsageRecord, c: CostRecord)
    ensures Requests(Empty, p, l) == 0 && Tokens(Empty, p, l, d) == 0 && Cost(Empty, p, project) == 0.0
    ensures UpdateUsage(Empty, u) == Err(UnknownProvider(u.provider))
    ensures UpdateCost(Empty, c) == Err(UnknownProvider(c.provider))
  {
  }

  /**
   Creates the families of a provider the first time it is named; a second
   registration changes nothing, and no counter reading changes either way.
   */
  function RegisterProvider(s: Sink, name: string): (r: Sink)
    ensures r.providers.Keys == s.providers.Keys + {name}
    ensures name in s.providers ==> r == s
    ensures forall p, l :: Requests(r, p, l) == Requests(s, p, l)
    ensures forall p, l, d :: Tokens(r, p, l, d) == Tokens(s, p, l, d)
    ensures forall p, j :: Cost(r, p, j) == Cost(s, p, j)
  {
    if name in s.providers then s else Sink(s.providers[name := NoFamilies])
  }

  /** Registering the same provider twice is the same as registering it once. */
  lemma RegisterIdempotent(s: Sink, name: string)
    ensures RegisterProvider(RegisterProvider(s, name), name) == RegisterProvider(s, name)
  {
  }

  /**
   Raises the requests counter by the request count and the tokens counters
   by the input and output token counts, all under the record's labels; fails
   when the record's provider is not registered. Every other counter, of this
   provider or any other, keeps its reading.
   */
  function UpdateUsage(s: Sink, rec: UsageRecord): (r: Result<Sink, SinkError>)
    ensures r.Ok? <==> rec.provider in s.providers
    ensures r.Err? ==> r.error == UnknownProvider(rec.provider)
    ensures r.Ok? ==> r.value.providers.Keys == s.providers.Keys
    ensures r.Ok? ==> forall p, l :: Requests(r.value, p, l) == Requests(s, p, l) + RequestDelta(rec, p, l)
    ensures r.Ok? ==> forall p, l, d :: Tokens(r.value, p, l, d) == Tokens(s, p, l, d) + TokenDelta(rec, p, l, d)
    ensures r.Ok? ==> forall p, j :: Cost(r.value, p, j) == Cost(s, p, j)
  {
    if rec.provider !in s.providers then Err(UnknownProvider(rec.provider))
    else
      var f := s.providers[rec.provider];
      var l := LabelsOf(rec);
      var requests := f.requests[l := Get(f.requests, l, 0) + rec.requestCount];
      var tokens := f.tokens[(l, Input) := Get(f.tokens, (l, Input), 0) + rec.inputTokens];
      var tokens := tokens[(l, Output) := Get(tokens, (l, Output), 0) + rec.outputTokens];
      Ok(Sink(s.providers[rec.provider := f.(requests := requests, tokens := tokens)]))
  }

  /**
   Raises only the cost counter of the record's provider and project, by the
   record's amount; fails when the provider is not registered.
   */
  function UpdateCost(s: Sink, rec: CostRecord): (r: Result<Sink, SinkError>)
    ensures r.Ok? <==> rec.provider in s.providers
    ensures r.Err? ==> r.error == UnknownProvider(rec.provider)
    ensures r.Ok? ==> r.value.providers.Keys == s.providers.Keys
    ensures r.Ok? ==> forall p, l :: Requests(r.value, p, l) == Requests(s, p, l)
    ensures r.Ok? ==> forall p, l, d :: Tokens(r.value, p, l, d) == Tokens(s, p, l, d)
    ensures r.Ok? ==> forall p, j :: Cost(r.value, p, j) == Cost(s, p, j) + CostDelta(rec, p, j)
  {
    if rec.provider !in s.providers then Err(UnknownProvider(rec.provider))
    else
      var f := s.providers[rec.provider];
      var cost := f.cost[rec.project := Get(f.cost, rec.project, 0.0) + rec.amountUsd];
      Ok(Sink(s.providers[rec.provider := f.(cost := cost)]))
  }
}

=== FILE: record_tracker.dfy ===
/**
 The record tracker: a map from a usage or cost key to the start of the
 window it names. Presence means "already counted"; the stored start orders
 entries for age-based eviction. Each operation is atomic, as the tracker's
 lock makes it.
 */
module Tracker {
  import opened Keys

  datatype Tracker = Tracker(seen: map<string, int>)

  const Empty: Tracker := Tracker(map[])

  /**
   Admits a usage window once: when its key is absent the answer is `true`
   and the key is stored with the window start; when present the answer is
   `false` and the tracker is unchanged.
   */
  function IsNewUsage(t: Tracker, id: UsageId): (r: (bool, Tracker))
    ensures r.0 <==> UsageKey(id) !in t.seen
    ensures r.0 ==> r.1.seen == t.seen[UsageKey(id) := id.start]
    ensures !r.0 ==> r.1 == t
  {
    var key := UsageKey(id);
    if key in t.seen then (false, t) else (true, Tracker(t.seen[key := id.start]))
  }

  /** The same admit-once rule over the cost key; the stored value is again the window start. */
  function IsNewCost(t: Tracker, id: CostId): (r: (bool, Tracker))
    ensures r.0 <==> CostKey(id) !in t.seen
    ensures r.0 ==> r.1.seen == t.seen[CostKey(id) := id.start]
    ensures !r.0 ==> r.1 == t
  {
    var key := CostKey(id);
    if key in t.seen then (false, t) else (true, Tracker(t.seen[key := id.start]))
  }

  /** With pipe-free fields, admitting one usage window leaves the answer for every other usage window unchanged. */
  lemma UsageAdmissionIndependent(t: Tracker, a: UsageId, b: UsageId)
    requires UsageIdPipeFree(a) && UsageIdPipeFree(b)
    requires a != b
    ensures IsNewUsage(IsNewUsage(t, a).1, b).0 == IsNewUsage(t, b).0
  {
    UsageKeyInjective(a, b);
  }

  /**
   Usage windows that differ only in their start, or only in their provider,
   are admitted independently whatever their fields hold, pipes included.
   */
  lemma StartOrProviderOnlyIndependent(t: Tracker, a: UsageId, b: UsageId)
    requires a.(start := 0) == b.(start := 0) || a.(provider := "") == b.(provider := "")
    requires a != b
    ensures IsNewUsage(IsNewUsage(t, a).1, b).0 == IsNewUsage(t, b).0
  {
    if a.(start := 0) == b.(start := 0) {
      StartDecidesKey(a, b);
    } else {
      ProviderDecidesKey(a, b);
    }
  }

  /** Cost windows that differ only in their start are admitted independently whatever their fields hold. */
  lemma CostStartOnlyIndependent(t: Tracker, a: CostId, b: CostId)
    requires a.(start := 0) == b.(start := 0) && a.start != b.start
    ensures IsNewCost(IsNewCost(t, a).1, b).0 == IsNewCost(t, b).0
  {
    CostStartDecidesKey(a, b);
  }

  /** With pipe-free fields, admitting one cost window leaves the answer for every other cost window unchanged. */
  lemma CostAdmissionIndependent(t: Tracker, a: CostId, b: CostId)
    requires CostIdPipeFree(a) && CostIdPipeFree(b)
    requires a != b
    ensures IsNewCost(IsNewCost(t, a).1, b).0 == IsNewCost(t, b).0
  {
    CostKeyInjective(a, b);
  }

  /** With pipe-free fields, usage and cost entries share one map without shadowing each other, in either order. */
  lemma UsageAndCostDoNotInterfere(t: Tracker, u: UsageId, c: CostId)
    requires UsageIdPipeFree(u) && CostIdPipeFree(c)
    ensures IsNewCost(IsNewUsage(t, u).1, c).0 == IsNewCost(t, c).0
    ensures IsNewUsage(IsNewCost(t, c).1, u).0 == IsNewUsage(t, u).0
  {
    UsageAndCostKeysDisjoint(u, c);
  }

  /** Keys whose stored window start is older than `cutoff`. */
  function Stale(t: Tracker, cutoff: int): set<string> {
    set k | k in t.seen && t.seen[k] < cutoff
  }

  /** The tracker with every stale entry removed and every other entry kept as it was. */
  function Retain(t: Tracker, cutoff: int): Tracker {
    Tracker(map k | k in t.seen && t.seen[k] >= cutoff :: t.seen[k])
  }

  /** Removing the stale keys leaves exactly the retained map, one entry fewer per stale key. */
  lemma RemoveStale(t: Tracker, cutoff: int)
    ensures t.seen - Stale(t, cutoff) == Retain(t, cutoff).seen
    ensures |Retain(t, cutoff).seen| == |t.seen| - |Stale(t, cutoff)|
  {
    var gone := Stale(t, cutoff);
    assert (t.seen - gone).Keys == t.seen.Keys - gone;
  }

  /**
   Removes exactly the entries whose window start is before `cutoff`, keeps
   every other entry with its value, and returns how many were removed.
   */
  method EvictBefore(t: Tracker, cutoff: int) returns (removed: nat, t': Tracker)
    ensures forall k :: k in t'.seen <==> k in t.seen && t.seen[k] >= cutoff
    ensures forall k :: k in t'.seen ==> t'.seen[k] == t.seen[k]
    ensures removed == |t.seen| - |t'.seen|
    ensures removed == |Stale(t, cutoff)|
    ensures t' == Retain(t, cutoff)
  {
    var toRemove := Stale(t, cutoff);
    var m := t.seen;
    var pending := toRemove;
    while pending != {}
      invariant pending <= toRemove
      invariant m == t.seen - (toRemove - pending)
      decreases |pending|
    {
      var k :| k in pending;
      m := m - {k};
      pending := pending - {k};
    }
    removed := |toRemove|;
    RemoveStale(t, cutoff);
    t' := Tracker(m);
  }

  /** Once evicted, a usage window is admitted again. */
  lemma EvictedUsageReadmitted(t: Tracker, id: UsageId, cutoff: int)
    requires UsageKey(id) in t.seen && t.seen[UsageKey(id)] < cutoff
    ensures IsNewUsage(Retain(t, cutoff), id).0
  {
  }

  /** A usage window that survives eviction is still rejected. */
  lemma RetainedUsageRejected(t: Tracker, id: UsageId, cutoff: int)
    requires UsageKey(id) in t.seen && t.seen[UsageKey(id)] >= cutoff
    ensures !IsNewUsage(Retain(t, cutoff), id).0
  {
  }

  /** A cutoff at or below every stored start removes nothing. */
  lemma EvictBelowAllRemovesNothing(t: Tracker, cutoff: int)
    requires forall k :: k in t.seen ==> t.seen[k] >= cutoff
    ensures Stale(t, cutoff) == {}
    ensures Retain(t, cutoff) == t
  {
  }

  /** Repeating an eviction with the same cutoff removes nothing more. */
  lemma EvictTwiceRemovesNothing(t: Tracker, cutoff: int)
    ensures Stale(Retain(t, cutoff), cutoff) == {}
    ensures Retain(Retain(t, cutoff), cutoff) == Retain(t, cutoff)
  {
  }

  /**
   Two windows of one key family with starts 1000 and 5000; eviction at 3000
   removes exactly one entry, after which the 1000 window is admitted again
   and the 5000 window is still rejected.
   */
  lemma EvictionScenario(p: string, m: string, j: string, k: string)
    ensures var old1 := UsageId(p, m, j, k, 1000);
            var new5 := UsageId(p, m, j, k, 5000);
            var t := IsNewUsage(IsNewUsage(Empty, old1).1, new5).1;
            && |Stale(t, 3000)| == 1
            && IsNewUsage(Retain(t, 3000), old1).0
            && !IsNewUsage(Retain(t, 3000), new5).0
  {
    var old1 := UsageId(p, m, j, k, 1000);
    var new5 := UsageId(p, m, j, k, 5000);
    StartDecidesKey(old1, new5);
    var t := IsNewUsage(IsNewUsage(Empty, old1).1, new5).1;
    assert t.seen == map[UsageKey(old1) := 1000, UsageKey(new5) := 5000];
    assert Stale(t, 3000) == {UsageKey(old1)};
  }
}

=== FILE: records.dfy ===
/**
 The two record kinds a provider returns. Both are immutable values with
 structural equality, and nothing is checked when they are built: a window may
 end before it starts and counts or amounts may be negative.
 */
module Records {
  import opened Keys

  /**
   One usage observation: token and request counts for a model, project and
   API-key identifier (never the secret itself) over the window
   `[timeFrameStart, timeFrameEnd)`, in unix seconds.
   */
  datatype UsageRecord = UsageRecord(
    provider: string,
    model: string,
    project: string,
    apiKeyId: string,
    inputTokens: int,
    outputTokens: int,
    requestCount: int,
    timeFrameStart: int,
    timeFrameEnd: int)
  {
    /** The fields the deduplication key is built from. */
    function Id(): UsageId {
      UsageId(provider, model, project, apiKeyId, timeFrameStart)
    }

    /** The window has fully elapsed at `now`; the collector skips records for which this is false. */
    predicate Complete(now: int) {
      timeFrameEnd <= now
    }
  }

  /** One cost observation: an amount in US dollars for a project over `[timeFrameStart, timeFrameEnd)`. */
  datatype CostRecord = CostRecord(
    provider: string,
    project: string,
    amountUsd: real,
    timeFrameStart: int,
    timeFrameEnd: int)
  {
    function Id(): CostId {
      CostId(provider, project, timeFrameStart)
    }
  }
}

=== FILE: results.dfy ===
/** Failure-carrying values used in place of the exceptions the exporter raises. */
module Results {

  /** A value that may be missing, as the result of a parse that can fail. */
  datatype Option<+T> = None | Some(value: T)

  /** The outcome of an operation that either produces a value or raises an error. */
  datatype Result<+T, +E> = Ok(value: T) | Err(error: E)
}

=== FILE: text.dfy ===
/**
 Text operations the exporter relies on: Python's decimal rendering of an
 integer (`str(n)`, used inside the f-string keys), Python's `int(text)` on a
 base-10 string (used by the listen-address parser), and splitting a string at
 a separator character, which is the inverse used to prove that `|`-joined keys
 determine their fields.
 */
module Text {
  import opened Results

  predicate IsDigit(c: char) {
    '0' <= c <= '9'
  }

  function DigitChar(d: nat): (c: char)
    requires d < 10
    ensures IsDigit(c)
  {
    ('0' as int + d) as char
  }

  function DigitValue(c: char): (d: nat)
    requires IsDigit(c)
    ensures d < 10
  {
    c as int - '0' as int
  }

  /**
   The whitespace that `int()` strips from ASCII text: space and \t \n \v \f \r.
   The separators \x1c-\x1f, which `str.strip()` would remove, are not among them.
   */
  predicate IsSpace(c: char) {
    c == ' ' || ('\t' <= c <= '\r')
  }

  /** Characters that may appear anywhere in a string `int()` accepts. */
  predicate IsNumeralChar(c: char) {
    IsDigit(c) || IsSpace(c) || c == '+' || c == '-' || c == '_'
  }

  // ---------------------------------------------------------------------------
  // Rendering

  /** Decimal digits of `n`, most significant first, without leading zeros. */
  function NatToString(n: nat): (s: string)
    ensures |s| > 0
    ensures forall i :: 0 <= i < |s| ==> IsDigit(s[i])
    ensures |s| > 1 ==> s[0] != '0'
    decreases n
  {
    if n < 10 then [DigitChar(n)] else NatToString(n / 10) + [DigitChar(n % 10)]
  }

  /** Python's `str(n)` for an integer: a minus sign before the digits of a negative number. */
  function IntToString(n: int): (s: string)
    ensures |s| > 0
    ensures forall i :: 0 <= i < |s| ==> IsDigit(s[i]) || (i == 0 && s[i] == '-')
    ensures s[0] == '-' <==> n < 0
  {
    if n < 0 then "-" + NatToString(-n) else NatToString(n)
  }

  // ---------------------------------------------------------------------------
  // Parsing, as Python's int(text) in base 10

  /** Number of whitespace characters at the front of `s`. */
  function LeadingSpaces(s: string): (k: nat)
    ensures k <= |s|
    ensures forall j :: 0 <= j < k ==> IsSpace(s[j])
    ensures k < |s| ==> !IsSpace(s[k])
  {
    if |s| > 0 && IsSpace(s[0]) then 1 + LeadingSpaces(s[1..]) else 0
  }

  /** Index where the trailing whitespace of `s` begins. */
  function TrailingStart(s: string): (k: nat)
    ensures k <= |s|
    ensures forall j :: k <= j < |s| ==> IsSpace(s[j])
    ensures k > 0 ==> !IsSpace(s[k - 1])
  {
    if |s| > 0 && IsSpace(s[|s| - 1]) then TrailingStart(s[..|s| - 1]) else |s|
  }

  /** `s` without leading and trailing whitespace; every other character survives. */
  function Strip(s: string): (r: string)
    ensures |r| <= |s|
    ensures |r| > 0 ==> !IsSpace(r[0]) && !IsSpace(r[|r| - 1])
    ensures forall i :: 0 <= i < |s| && !IsSpace(s[i]) ==> s[i] in r
    ensures forall c :: c in r ==> c in s
  {
    var a := LeadingSpaces(s);
    var b := TrailingStart(s);
    if a < b then
      assert forall i :: 0 <= i < |s| && !IsSpace(s[i]) ==> a <= i < b && s[a..b][i - a] == s[i];
      s[a..b]
    else
      ""
  }

  /** Digits in which a single underscore may separate two digits: `digit ("_"? digit)*`. */
  predicate IsDigitRun(s: string)
    decreases |s|
  {
    && |s| > 0
    && IsDigit(s[|s| - 1])
    && (|| |s| == 1
        || IsDigitRun(s[..|s| - 1])
        || (|s| >= 3 && s[|s| - 2] == '_' && IsDigitRun(s[..|s| - 2])))
  }

  /** The value of a digit run, ignoring its underscores. */
  function RunValue(s: string): nat
    requires IsDigitRun(s)
    decreases |s|
  {
    var d := DigitValue(s[|s| - 1]);
    if |s| == 1 then d
    else if IsDigit(s[|s| - 2]) then 10 * RunValue(s[..|s| - 1]) + d
    else
      var p := s[..|s| - 1];
      assert p[|p| - 1] == s[|s| - 2];
      assert !IsDigitRun(p);
      10 * RunValue(s[..|s| - 2]) + d
  }

  lemma {:induction false} DigitRunChars(s: string)
    requires IsDigitRun(s)
    ensures IsDigit(s[0])
    ensures forall i :: 0 <= i < |s| ==> IsDigit(s[i]) || s[i] == '_'
    decreases |s|
  {
    if |s| > 1 {
      if IsDigitRun(s[..|s| - 1]) {
        DigitRunChars(s[..|s| - 1]);
        assert forall i :: 0 <= i < |s| - 1 ==> s[..|s| - 1][i] == s[i];
      } else {
        DigitRunChars(s[..|s| - 2]);
        assert forall i :: 0 <= i < |s| - 2 ==> s[..|s| - 2][i] == s[i];
      }
    }
  }

  /** `int()` applied to text that has already been stripped of surrounding whitespace. */
  function ParseStripped(t: string): Option<int> {
    if |t| > 0 && (t[0] == '-' || t[0] == '+') then
      if IsDigitRun(t[1..]) then
        var v: int := RunValue(t[1..]);
        Some(if t[0] == '-' then -v else v)
      else None
    else if IsDigitRun(t) then Some(RunValue(t))
    else None
  }

  /** Python's `int(text)`: `None` where Python raises ValueError. */
  function ParseInt(s: string): (r: Option<int>)
    ensures Strip(s) == [] ==> r.None?
    ensures r.Some? && r.value < 0 ==> Strip(s)[0] == '-'
  {
    ParseStripped(Strip(s))
  }

  /** `int()` accepts only digits, whitespace, signs and underscores, and needs at least one digit. */
  lemma ParseIntAcceptsOnlyNumerals(s: string)
    requires ParseInt(s).Some?
    ensures forall i :: 0 <= i < |s| ==> IsNumeralChar(s[i])
    ensures exists i :: 0 <= i < |s| && IsDigit(s[i])
  {
    var t := Strip(s);
    var body := if t[0] == '-' || t[0] == '+' then t[1..] else t;
    DigitRunChars(body);
    assert forall c :: c in t ==> IsNumeralChar(c) by {
      forall c | c in t ensures IsNumeralChar(c) {
        var j :| 0 <= j < |t| && t[j] == c;
        if body != t { assert j == 0 || t[j] == body[j - 1]; }
      }
    }
    assert body[0] in s;
  }

  /** `int()` refuses text holding one of the information separators \x1c-\x1f anywhere. */
  lemma SeparatorRefused(s: string, k: int)
    requires 0 <= k < |s| && 28 <= s[k] as int <= 31
    ensures ParseInt(s).None?
  {
    if ParseInt(s).Some? {
      ParseIntAcceptsOnlyNumerals(s);
    }
  }

  /** `int("\x1c5")` raises: the separator is not stripped like whitespace. */
  lemma SeparatorPaddedFiveRefused()
    ensures ParseInt("\U{1c}5").None?
  {
    SeparatorRefused("\U{1c}5", 0);
  }

  lemma {:induction false} RunValueOfNatToString(n: nat)
    ensures IsDigitRun(NatToString(n))
    ensures RunValue(NatToString(n)) == n
    decreases n
  {
    var s := NatToString(n);
    if n >= 10 {
      RunValueOfNatToString(n / 10);
      assert s[..|s| - 1] == NatToString(n / 10);
      assert IsDigit(s[|s| - 2]);
    }
  }

  lemma StripNoSpaceEnds(s: string)
    requires |s| > 0 && !IsSpace(s[0]) && !IsSpace(s[|s| - 1])
    ensures Strip(s) == s
  {
    assert LeadingSpaces(s) == 0;
    assert TrailingStart(s) == |s|;
  }

  lemma ParseStrippedDigits(s: string)
    requires IsDigitRun(s)
    ensures ParseStripped(s) == Some(RunValue(s) as int)
  {
    DigitRunChars(s);
  }

  lemma ParseStrippedNegative(t: string)
    requires IsDigitRun(t)
    ensures ParseStripped("-" + t) == Some(-(RunValue(t) as int))
  {
    assert ("-" + t)[1..] == t;
  }

  lemma IntToStringIsStripped(n: int)
    ensures Strip(IntToString(n)) == IntToString(n)
  {
    var s := IntToString(n);
    assert !IsSpace(s[0]) && !IsSpace(s[|s| - 1]);
    StripNoSpaceEnds(s);
  }

  lemma ParseStrippedNegativeToString(n: int)
    requires n < 0
    ensures ParseStripped(IntToString(n)) == Some(n)
  {
    var t := NatToString(-n);
    assert IntToString(n) == "-" + t;
    RunValueOfNatToString(-n);
    ParseStrippedNegative(t);
  }

  lemma ParseStrippedNatToString(n: int)
    requires n >= 0
    ensures ParseStripped(IntToString(n)) == Some(n)
  {
    RunValueOfNatToString(n);
    ParseStrippedDigits(IntToString(n));
  }

  lemma ParseStrippedIntToString(n: int)
    ensures ParseStripped(IntToString(n)) == Some(n)
  {
    if n < 0 {
      ParseStrippedNegativeToString(n);
    } else {
      ParseStrippedNatToString(n);
    }
  }

  /** `int(str(n)) == n`: parsing inverts rendering. */
  lemma ParseIntToString(n: int)
    ensures ParseInt(IntToString(n)) == Some(n)
  {
    IntToStringIsStripped(n);
    ParseStrippedIntToString(n);
  }

  /** Rendering is injective, because parsing inverts it. */
  lemma IntToStringInjective(m: int, n: int)
    requires IntToString(m) == IntToString(n)
    ensures m == n
  {
    ParseIntToString(m);
    ParseIntToString(n);
  }

  // ---------------------------------------------------------------------------
  // Joining and splitting at a separator

  /** `parts` joined by `sep`, as Python's `sep.join(parts)` on a non-empty list. */
  function Join(parts: seq<string>, sep: char): string
    requires |parts| > 0
  {
    if |parts| == 1 then parts[0] else parts[0] + [sep] + Join(parts[1..], sep)
  }

  /** The pieces of `s` between occurrences of `sep`, as Python's `s.split(sep)`. */
  function Split(s: string, sep: char): (r: seq<string>)
    ensures |r| > 0
    ensures forall i :: 0 <= i < |r| ==> sep !in r[i]
  {
    if |s| == 0 then [""]
    else
      var rest := Split(s[1..], sep);
      if s[0] == sep then [""] + rest
      else
        assert forall i :: 1 <= i < |rest| ==> (rest[1..])[i - 1] == rest[i];
        [[s[0]] + rest[0]] + rest[1..]
  }

  lemma {:induction false} SplitNoSep(a: string, sep: char)
    requires sep !in a
    ensures Split(a, sep) == [a]
    decreases |a|
  {
    if |a| > 0 {
      SplitNoSep(a[1..], sep);
      assert [a[0]] + a[1..] == a;
    }
  }

  lemma {:induction false} SplitAfterPiece(a: string, sep: char, b: string)
    requires sep !in a
    ensures Split(a + [sep] + b, sep) == [a] + Split(b, sep)
    decreases |a|
  {
    var s := a + [sep] + b;
    if |a| == 0 {
      assert s[1..] == b;
    } else {
      assert s[1..] == a[1..] + [sep] + b;
      SplitAfterPiece(a[1..], sep, b);
      assert [a[0]] + a[1..] == a;
    }
  }

  /** Splitting undoes joining when no part contains the separator. */
  lemma {:induction false} SplitJoin(parts: seq<string>, sep: char)
    requires |parts| > 0
    requires forall i :: 0 <= i < |parts| ==> sep !in parts[i]
    ensures Split(Join(parts, sep), sep) == parts
    decreases |parts|
  {
    if |parts| == 1 {
      SplitNoSep(parts[0], sep);
    } else {
      SplitJoin(parts[1..], sep);
      SplitAfterPiece(parts[0], sep, Join(parts[1..], sep));
      assert [parts[0]] + parts[1..] == parts;
    }
  }
}
